=== FILE: README.md ===
# jellycli terminal widgets, modelled in Dafny

jellycli is a terminal client for a Jellyfin media server. This project models the
deterministic core of its user interface:

- the root window's navigation state machine: the screen in the central slot, each
  screen's back-link, keyboard focus, the single modal overlay, and the Tab toggle;
- the window's global key dispatch and its "fetch, then fill, then switch" handlers;
- the album-list widget: `printArtists`, cover numbering, the banner's focus order,
  paging and album selection;
- the help modal's pager and `formatBytes`;
- the playlist view's focus toggle and play actions;
- the media-navigation panel: the categories, Enter and mouse selection, and counts.

Everything is written as immutable records and pure functions. The terminal toolkit is
replaced by explicit fields:

- The focus is a `Focus` value naming a widget.
- A grid slot is the `mediaView` field.
- A modal is an identifier plus its placement.

Fetches from the media server are inputs of the form `Fetched(value)` or `FetchError`.
What the window asks of the media player, the play queue and the application comes back
as a list of `Effect` values. Items are identities: `Item(kind, id)`, or `Nil` for Go's
nil pointer.

Files:

| file | module | contents |
|---|---|---|
| common.dfy | Common | `Option`; decimal rendering (`fmt.Sprint` of an integer) and its parse round trip |
| models.dfy | Models | items, fetch outcomes, the `Paging` value, terminal key codes |
| artist_albums.dfy | ArtistAlbums | `printArtists` and the `AlbumList` widget |
| help.dfy | HelpModal | the help pager and `formatBytes` |
| playlist.dfy | PlaylistWidget | the playlist view |
| media_navigation.dfy | MediaNavigation | the media-navigation panel |
| window.dfy | Window | view switching, back-links, modals, focus, Tab |
| handlers.dfy | WindowHandlers | key dispatch, the media selection, the fetch handlers, search |

Behaviour of the code worth knowing:

- `selectSongs`, `showRecentSongsPage` and the "Songs" and "Recently played" categories
  switch to the songs screen even when the fetch fails. The screen is then empty.
- "Albums" switches paging on in the main album list right after the fetch returns and
  before its error is checked, so the change survives a failed fetch.
- "Favorite albums" switches paging off in the main album list, not in the
  favorite-albums list it then shows.
- Opening a genre search result fills the genre screen with as many nil entries as there
  were results.
- Search results of an unexpected kind become nil entries, because Go's comma-ok type
  assertion yields nil. Among album results a nil entry makes the album list read its
  name, and the program panics.
- `showModal` blurs the current focus without checking it. On a fresh window, Tab moves
  the focus to the still empty central slot, and the help key then panics.
- `setViewWidget` does not touch `mediaViewSelected`. After the navigation panel opens a
  screen, the focus is already on that screen, and the first Tab leaves it there.
- `closeModal` closes whatever modal is open, whichever modal it is given.
- `showMessage` replaces the message text even when another modal is open and the dialog
  is refused, and it shares the panic of `showModal` when nothing has the focus.
- Only the screens the constructor hands the back callback can go back. The
  latest-albums, favorite-albums, playlists and search screens keep the back-link
  they are given, but their back button does not switch screens.
- Back-links are not kept acyclic. Drilling from A to B and on to A links the two
  screens to each other.
- There is no guard against answers to stale requests. Each handler uses whatever
  answer it is given.
- The media-navigation mouse handler never reports an event as consumed.

## Model

| member | source | states |
|---|---|---|
| ArtistAlbums.PrintArtists | ui/widgets/artist_albums.go:90-116 | names joined by ", " when their total width plus two per separator fits; otherwise "<n> artists" if that fits, else ""; never longer than a non-negative maxWidth; "" for no names |
| ArtistAlbums.JoinLength | ui/widgets/artist_albums.go:109-115 | the joined text is exactly as long as the width computed at lines 92-98 |
| ArtistAlbums.Controls | ui/widgets/artist_albums.go:244-265 | the banner focus order is Back, Play, then the two page buttons exactly when paging is on, then Options exactly when the similar menu is on, then the list, with no control twice and banner order kept |
| ArtistAlbums.NewAlbumList | ui/widgets/artist_albums.go:269-347 | a new list has paging and the similar menu on, no covers, and a focus order rebuilt from those toggles |
| ArtistAlbums.SetButtons | ui/widgets/artist_albums.go:244-265 | rebuilding the banner changes nothing but the focus order, which then matches the toggles |
| ArtistAlbums.Clear | ui/widgets/artist_albums.go:150-154 | the rows and the backing covers are both emptied; nothing else changes |
| ArtistAlbums.AddAlbum | ui/widgets/artist_albums.go:145-148 | the cover is appended to the rows and the covers alike; earlier covers are kept |
| ArtistAlbums.Numbered | ui/widgets/artist_albums.go:211-214 | cover i carries album i and number first + i |
| ArtistAlbums.SetAlbums | ui/widgets/artist_albums.go:201-225 | one cover per album, in order, cover i numbered offset + i + 1, where the offset is the page offset with paging on and 0 otherwise; rows and covers agree |
| ArtistAlbums.EnablePaging | ui/widgets/artist_albums.go:228-237 | asking for the current setting changes nothing and does not rebuild the banner; otherwise the flag flips and the focus order follows |
| ArtistAlbums.EnablePagingIdempotent | ui/widgets/artist_albums.go:228-237 | enabling paging twice is enabling it once |
| ArtistAlbums.EnableSimilar | ui/widgets/artist_albums.go:239-242 | the similar flag is set and the banner is always rebuilt to match |
| ArtistAlbums.EnableArtistMode | ui/widgets/artist_albums.go:188-190 | only the artist-mode flag changes |
| ArtistAlbums.TogglesKeepButtonsCurrent | ui/widgets/artist_albums.go:228-242 | every toggle keeps the focus order in agreement with the toggles |
| ArtistAlbums.SetPage | ui/widgets/artist_albums.go:180-184 | the list adopts the page and the selector shows its current page |
| ArtistAlbums.SetArtist | ui/widgets/artist_albums.go:157-170 | only the banner's artist changes |
| ArtistAlbums.SelectPage | ui/widgets/artist_albums.go:192-198 | the page moves to n, size and total are kept, and exactly that updated page goes to the page callback when one is set |
| ArtistAlbums.SelectAlbum | ui/widgets/artist_albums.go:359-367 | the select callback gets a cover's album exactly when a callback is set and the selected index is below the number of covers |
| ArtistAlbums.SelectAfterSetAlbums | ui/widgets/artist_albums.go:201-225 | selecting row i right after filling the list selects the i-th album given |
| ArtistAlbums.SelectAfterClear | ui/widgets/artist_albums.go:150-154 | after clearing, no row selects anything |
| ArtistAlbums.CoverNumbersDistinct | ui/widgets/artist_albums.go:211-214 | cover numbers on a page strictly increase |
| ArtistAlbums.InstantMixAt | ui/widgets/artist_albums.go:319-324 | the instant-mix action mixes the album under the index exactly when the index names a cover |
| ArtistAlbums.InstantMixAfterSetAlbums | ui/widgets/artist_albums.go:319-324 | right after the covers are set, the instant mix of row i is the i-th album given, and rows past the end mix nothing |
| ArtistAlbums.NewLatestAlbums | ui/widgets/artist_albums.go:375-381 | the latest-albums list has paging and the similar menu off, so only Back, Play and the list are focusable |
| ArtistAlbums.NewFavoriteAlbums | ui/widgets/artist_albums.go:383-389 | the favorite-albums list keeps paging, drops the similar menu |
| HelpModal.PageAt | ui/widgets/modal/help.go:107-118 | a page exists exactly for indexes 0, 1 and 2 |
| HelpModal.SetContent | ui/widgets/modal/help.go:104-131 | pages 0, 1, 2 are laid out with their header; an out-of-range page leaves the view as it was |
| HelpModal.NewHelp | ui/widgets/modal/help.go:86-102 | a new help dialog shows page 0 of 3 |
| HelpModal.Input | ui/widgets/modal/help.go:51-70 | Escape asks to close without changing the page; Left and Right move one page within bounds and stop at either end; every other key goes to the text view; a valid state stays valid |
| HelpModal.RunStaysValid | ui/widgets/modal/help.go:56-65 | under any key sequence the page stays in [0, 3) and the view shows that page |
| HelpModal.RightThenLeft | ui/widgets/modal/help.go:56-65 | Right then Left restores the state when there is a next page |
| HelpModal.LeftThenRight | ui/widgets/modal/help.go:56-65 | Left then Right restores the state when there is a previous page |
| HelpModal.Header | ui/widgets/modal/help.go:120-128 | a header opens with "< " followed by the one-based page number and a space |
| HelpModal.HeaderPageReadsBack | ui/widgets/modal/help.go:120-128 | the page number in a header reads back as page+1 |
| HelpModal.HeadersDistinct | ui/widgets/modal/help.go:120-128 | the header lines of two different pages differ, because the page numbers they print differ |
| HelpModal.FormatBytes | ui/widgets/modal/help.go:171-185 | below 1024 the plain decimal; below 1024² the count of KiB; below 1024³ the count of MiB; "" from one GiB up |
| HelpModal.FormatBytesCorrected | ui/widgets/modal/help.go:171-185 | agrees with the formatter below one GiB and writes whole GiB from there on; never empty |
| HelpModal.FormatBytesScaled | ui/widgets/modal/help.go:171-180 | below one GiB the printed number times its unit is at most the count and within one unit of it, and the number is below 1024 |
| HelpModal.OneGiBFormatsEmpty | ui/widgets/modal/help.go:181-184 | one GiB formats to "" as written and to "1 GiB" corrected |
| PlaylistWidget.NewPlaylistView | ui/widgets/playlist.go:50-76 | a new playlist screen has no playlist and no rows, the header focused, and exactly the callbacks it was given |
| PlaylistWidget.SetPlaylist | ui/widgets/playlist.go:153-173 | one row per song, in order, numbered from 1; nothing but the playlist and its rows changes |
| PlaylistWidget.PlaySongAt | ui/widgets/playlist.go:199-204 | with a play callback the song at the index is played; an index past the end panics |
| PlaylistWidget.PlayAll | ui/widgets/playlist.go:206-214 | every song in list order goes to the play-songs callback when one is set |
| PlaylistWidget.PlayFromSelected | ui/widgets/playlist.go:216-225 | exactly the songs from the selected one to the end, in order; a selection past the end panics |
| PlaylistWidget.Input | ui/widgets/playlist.go:175-197 | with the list focused, Up or Ctrl-K on row 0 hands focus to the header, a bare Enter plays the selected song, and other keys go to the list; with the header focused, Down or Ctrl-J focuses the list and other keys are dropped |
| PlaylistWidget.Context | ui/widgets/playlist.go:106-128 | "Play all from here" plays from the selection; "View album" is unguarded and panics past the end; "View artist" and "Instant mix" do nothing for an index past the end |
| PlaylistWidget.PlayAllAfterSetPlaylist | ui/widgets/playlist.go:153-214 | after showing a playlist, "Play all" queues exactly its songs |
| PlaylistWidget.PlayFromFirstIsPlayAll | ui/widgets/playlist.go:206-225 | playing from row 0 is playing everything |
| PlaylistWidget.PlayFromSelectedSplits | ui/widgets/playlist.go:216-225 | playing from row i is row i's song followed by what playing from row i+1 queues |
| PlaylistWidget.DownThenUpRestores | ui/widgets/playlist.go:180-192 | Down from the header and Up at the top of the list restore the view |
| PlaylistWidget.EnterPlaysShownSong | ui/widgets/playlist.go:184-185 | Enter on a shown row plays the song of that row |
| MediaNavigation.Ordinal | ui/widgets/media_navigation.go:28-39 | every category is a row number below 10 |
| MediaNavigation.FromOrdinal | ui/widgets/media_navigation.go:28-39 | a row number names a category exactly when it lies in 0..9, and that category's number is the row |
| MediaNavigation.OrdinalRoundTrip | ui/widgets/media_navigation.go:28-39 | a category survives the trip to its number and back |
| MediaNavigation.OrdinalInjective | ui/widgets/media_navigation.go:28-39 | distinct categories have distinct numbers |
| MediaNavigation.NewMediaNavigation | ui/widgets/media_navigation.go:62-82 | column 0 of row i holds category i's label for all ten categories, and no other cell is filled |
| MediaNavigation.EveryCategoryLabelled | ui/widgets/media_navigation.go:41-52 | every category has a non-empty label in its row |
| MediaNavigation.SetCount | ui/widgets/media_navigation.go:143-145 | the count is written into column 1 of the category's row and no other cell changes |
| MediaNavigation.SetCountReadsBack | ui/widgets/media_navigation.go:143-145 | the written count parses back to the same number |
| MediaNavigation.Input | ui/widgets/media_navigation.go:94-105 | Enter with a select callback reports the selected row; any other key goes to the table |
| MediaNavigation.ClickRow | ui/widgets/media_navigation.go:119-132 | as written, the row is y minus the inner top plus the offset exactly when that is below the row count, and -1 otherwise; the inside test has no effect |
| MediaNavigation.ClickRowCorrected | ui/widgets/media_navigation.go:119-132 | a click selects a row only inside the inner rectangle, and there agrees with the code |
| MediaNavigation.BorderClickSelectsRow | ui/widgets/media_navigation.go:122-126 | a click on the bottom border selects the row below the last visible one |
| MediaNavigation.Mouse | ui/widgets/media_navigation.go:108-141 | nothing happens outside the widget; the widget is focused exactly on a left click inside it, which also selects and reports the row when that row is below the row count and a callback is set; nothing is reported consumed |
| MediaNavigation.ClickAgreesWithEnter | ui/widgets/media_navigation.go:98-137 | clicking a row selects the category Enter on that row selects |
| Window.NewWindow | ui/widgets/window.go:131 | the window starts with an empty central slot, the navigation panel focused and no modal |
| Window.SetLast | ui/widgets/window.go:217-219 | only the given screen's back-link changes |
| Window.SetViewWidget | ui/widgets/window.go:206-220 | switching to the current screen changes nothing; otherwise the screen becomes current and focused, the focus before is remembered, the back-link is set to the replaced screen only when asked, other links and the modal are untouched, and no screen comes to link to itself |
| Window.GoBack | ui/widgets/window.go:201-203 | the back callback switches screens without touching any back-link |
| Window.Back | ui/widgets/window.go:201-203 | on a screen given the back callback, the back button follows the current screen's link; on the latest-albums, favorite-albums, playlists and search screens, or without a link, it does nothing |
| Window.SwitchToUncalledStays | ui/widgets/window.go:84-117 | switching to a screen without the back callback still sets its link, but its back button leaves the window as it is |
| Window.LatestAlbumsBackStays | ui/widgets/window.go:91 | from the artists screen, opening the latest albums and pressing back stays on the latest albums |
| Window.ShowModal | ui/widgets/window.go:442-459 | with no modal open and a focused widget, the modal opens with its placement, takes the focus and saves the previous focus; with no modal and nothing focused the blur panics; with a modal open nothing changes; the flag and the reference keep agreeing |
| Window.ShowModalGuarded | ui/widgets/window.go:442-459 | with the nil check that moveCtrl uses: agrees with the code whenever the code does not panic, and always opens the modal over a free window |
| Window.CloseModal | ui/widgets/window.go:426-440 | with a modal open, it closes and the saved focus returns while the saved focus is cleared; with none nothing changes; the flag and the reference keep agreeing |
| Window.MoveCtrl | ui/widgets/window.go:315-339 | Tab closes any open modal, flips the selection flag, and moves focus to the navigation panel when the central slot was selected, else to the central slot |
| Window.ShowThenClose | ui/widgets/window.go:426-459 | with a focused widget, opening and closing a modal restores the window except for the cleared saved focus |
| Window.SecondModalRefused | ui/widgets/window.go:443-458 | with a focused widget the first modal opens, and a second one is refused while the first stays |
| Window.ShowWithoutFocusPanics | ui/widgets/window.go:446-447 | with nothing focused the code panics, while the guarded version opens and closes back to the window |
| Window.GuardedShowThenClose | ui/widgets/window.go:426-459 | with the nil check, opening and closing a modal restores the window in every case, including when nothing was focused |
| Window.CloseIdempotent | ui/widgets/window.go:426-440 | closing twice is closing once |
| Window.SwitchThenBack | ui/widgets/window.go:201-220 | switching to a screen that has the back callback and pressing its back button returns to the screen before |
| Window.TabAfterNavigationStaysOnView | ui/widgets/window.go:206-220 | after the navigation panel opens a screen, the first Tab keeps the focus on that screen |
| Window.TabTwice | ui/widgets/window.go:315-339 | two Tabs with no modal restore the selection flag and leave the focus on the side it names |
| Window.BackLinksCanCycle | ui/widgets/window.go:206-220 | going from A to B and back to A by selection makes A and B link to each other |
| Window.DrillDownChains | ui/widgets/window.go:206-220 | switching through distinct screens chains each one's back-link to the one before |
| Window.BackAlongChain | ui/widgets/window.go:201-203 | along such a chain of screens that all have the back callback, k+1 presses of back from the k-th screen reach the start |
| Window.DrillThenBack | ui/widgets/window.go:201-220 | drilling through n distinct screens that all have the back callback and pressing back n times returns to the start |
| WindowHandlers.NewApp | ui/widgets/window.go:76-176 | the built window satisfies the invariant, with an empty slot, the panel focused and no modal |
| WindowHandlers.ShowMessage | ui/widgets/window.go:761-770 | the text is replaced and the message dialog is shown, with -1 meaning 25 rows or 50 columns and negative sizes wrapping as unsigned; it panics exactly when no modal is open and nothing is focused |
| WindowHandlers.ToUint | ui/widgets/window.go:769 | a non-negative size is kept and a negative 64-bit size wraps to itself plus 2^64 |
| WindowHandlers.HelpKey | ui/widgets/window.go:135-136 | Escape in the help dialog closes the open modal and restores the saved focus; other keys only page |
| WindowHandlers.MediaCtrl | ui/widgets/window.go:252-279 | a media key matches exactly when it is bound; Stop stops playback and clears the queue; each other key yields one effect |
| WindowHandlers.MediaKeysEachAct | ui/widgets/window.go:259-274 | with distinct bindings each key does its own action: volume moves by 5 and seek by 3000 ticks, and the opposite keys cancel out |
| WindowHandlers.CloseHelpIfFocused | ui/widgets/window.go:295-297 | the help dialog is closed exactly when it holds the focus |
| WindowHandlers.NavBarCtrl | ui/widgets/window.go:281-313 | Quit stops the application; Help opens the help dialog large, and panics when no modal is open and nothing is focused; Search clears the results and shows the search screen; Queue and History close a focused help dialog and show their screen; History also asks for the last 100 entries |
| WindowHandlers.KeyHandler | ui/widgets/window.go:222-250 | media keys first, then the navigation bar, then Tab; a key is consumed exactly when one of them matched and is otherwise handed on unchanged with no other effect; it panics exactly for the help key with no modal open and nothing focused |
| WindowHandlers.HelpOpenThenEscape | ui/widgets/window.go:287-290 | with a focused widget, the help key opens the help dialog, and Escape in it restores the window |
| WindowHandlers.QueueClosesFocusedHelp | ui/widgets/window.go:294-298 | the queue key while help has the focus closes help and shows the queue |
| WindowHandlers.TabThenHelpPanics | ui/widgets/window.go:286-289 | on a new window Tab leaves nothing focused, and the help key then panics |
| WindowHandlers.ShowLatestMusic | ui/widgets/window.go:472-496 | on success the latest list shows the albums under a pseudo artist with an empty id and the album count, the count is written, and the screen switches; an error changes nothing |
| WindowHandlers.ShowFavoriteArtists | ui/widgets/window.go:497-508 | on success the artists are listed, counted and shown; an error changes nothing |
| WindowHandlers.ShowPlaylists | ui/widgets/window.go:509-517 | on success the playlists are listed, counted and shown; an error changes nothing |
| WindowHandlers.ShowSongs | ui/widgets/window.go:518-548 | the songs screen is shown even on error, then empty with a total of 0; on success the pager follows the category and the count is written unless recent songs are limited |
| WindowHandlers.ShowArtists | ui/widgets/window.go:549-575 | on success the artists, their page with the total and the count are set and the screen switches; an error changes nothing |
| WindowHandlers.LoadAlbums | ui/widgets/window.go:604-610 | the list adopts the page, drops the similar menu and artist mode, and shows the albums numbered from its offset |
| WindowHandlers.ShowAllAlbums | ui/widgets/window.go:576-611 | paging of the main album list is switched on after the fetch returns and before its error is checked, so it stays on after a failed fetch, which otherwise leaves the window alone; on success the albums fill the main list in order with the default page, the count is written and the albums screen is switched to |
| WindowHandlers.ShowFavoriteAlbums | ui/widgets/window.go:576-611 | the main album list's paging is switched off after the fetch returns and before its error is checked, and a failed fetch otherwise leaves the window alone; on success the favorite list is filled with a page size of 200, its own paging flag untouched, the count is written and the favorite-albums screen is switched to |
| WindowHandlers.ShowGenrePage | ui/widgets/window.go:789-799 | on success the genres and their page are set and the screen switches; an error changes nothing |
| WindowHandlers.Dispatch | ui/widgets/window.go:470-616 | a category whose request is answered switches to that category's screen and chains its back-link; an unanswered one leaves the window alone, except the two song categories, which switch to the songs screen regardless; the window invariant is kept |
| WindowHandlers.SelectMedia | ui/widgets/window.go:470-616 | a row number outside the ten categories does nothing; a row inside them runs the handler of the category on that row; the invariant is kept |
| WindowHandlers.EnterOpensCategory | ui/widgets/media_navigation.go:94-105 | Enter on a navigation row whose request is answered opens that category's screen |
| WindowHandlers.SelectArtist | ui/widgets/window.go:618-632 | on success the main list shows the artist's albums numbered from 1, in artist mode, without paging, with the similar menu, and with the artist and album count on the banner; an error changes nothing |
| WindowHandlers.FillAlbum | ui/widgets/window.go:644-650 | the album screen gets the album and its songs; a fetched artist replaces the album artist and a failed fetch keeps the old one; no other screen's list and nothing else changes |
| WindowHandlers.SelectAlbum | ui/widgets/window.go:634-654 | on success the album screen shows the album and songs and is current; its back-link is the screen current before, even when that was the album screen itself; a failed artist fetch keeps the old artist |
| WindowHandlers.SelectAlbumCorrected | ui/widgets/window.go:634-654 | as above, but the album screen keeps its link when already current, so no screen links to itself |
| WindowHandlers.SelectAlbumSelfLink | ui/widgets/window.go:651-652 | selecting an album from the album screen links it to itself, and back then does nothing |
| WindowHandlers.SelectAlbumVersionsAgree | ui/widgets/window.go:651-652 | coming from any other screen both versions give the same window |
| WindowHandlers.SelectPlaylist | ui/widgets/window.go:656-665 | on success the playlist view shows exactly the fetched songs and is switched to; an error changes nothing |
| WindowHandlers.ShowSongPage | ui/widgets/window.go:667-685 | the songs screen gets the page and the fetched songs, or none on error, and is switched to in both cases |
| WindowHandlers.ShowArtistPage | ui/widgets/window.go:687-698 | on success the artists are replaced and the screen is switched to without touching back-links; an error changes nothing |
| WindowHandlers.ShowAlbumPage | ui/widgets/window.go:700-713 | on success the main list is refilled with paging on, covers numbered from the page offset and the count written, without switching screens |
| WindowHandlers.AlbumPageNumbering | ui/widgets/window.go:700-713 | the first cover of page n of size s is numbered n·s + 1 |
| WindowHandlers.ShowSimilarArtists | ui/widgets/window.go:727-739 | similar artists are shown when there are some; none opens the message dialog, with its panic when nothing is focused; an error changes nothing |
| WindowHandlers.ShowSimilarAlbums | ui/widgets/window.go:741-755 | similar albums fill the similar list without paging or menu when there are some; none opens the message dialog, with its panic when nothing is focused; an error changes nothing |
| WindowHandlers.NoSimilarOpensMessage | ui/widgets/window.go:752-769 | with a focused widget, no similar albums opens a 3-by-50 message dialog that takes the focus |
| WindowHandlers.SelectGenre | ui/widgets/window.go:772-787 | on success the main list shows the genre's albums with every toggle off and is switched to; an error changes nothing |
| WindowHandlers.HitsExactly | ui/widgets/window.go:345-354 | the result groups are exactly the successful non-empty answers |
| WindowHandlers.SearchCb | ui/widgets/window.go:341-355 | the results are the successful non-empty answers in the order of the configured types; nothing else changes |
| WindowHandlers.SearchSkipsFailures | ui/widgets/window.go:345-354 | a failed type is skipped while the next type still gives its group |
| WindowHandlers.ShowSearchResults | ui/widgets/window.go:357-414 | the screen for the result kind is filled and switched to from the search screen, with wrong-kind items as nil and genres all nil; albums are numbered from 1 and a non-album item among album results panics; songs get the default page; other kinds do nothing |
| WindowHandlers.Cast | ui/widgets/window.go:365-367 | the comma-ok cast keeps exactly the items of the asked kind and puts nil at every other position, preserving length |
| WindowHandlers.PressBack | ui/widgets/window.go:201-203 | on a screen given the back callback, the back button follows its link and moves the focus there; only the window changes and every back-link is kept; with no callback, no link or a self-link it does nothing |
| WindowHandlers.ArtistAlbumBackScenario | ui/widgets/window.go:549-654 | artists, then an artist, then an album: back twice returns to the albums and then the artists, and a third back does nothing |
| WindowHandlers.ArtistsStep | ui/widgets/window.go:549-575 | from a window with no current screen, the artists screen opened by the navigation panel becomes current with no back-link |
| WindowHandlers.ArtistStep | ui/widgets/window.go:618-632 | choosing an artist from the artists screen links the albums screen back to it and leaves the artists screen unlinked |
| WindowHandlers.AlbumStep | ui/widgets/window.go:634-654 | choosing an album links the album screen back to the albums screen and keeps the older links |
| WindowHandlers.BackTwice | ui/widgets/window.go:201-203 | back follows the chain of links and stops at a screen without one |

## Left out

- Drawing, layout, colours, borders, the grid and its sizes, and all toolkit calls. Focus is an explicit field.
- ui/ui.go, the older front end built on goroutines, channels and a mutex. It is concurrency and terminal geometry.
- ui/widgets/modal/modal.go only declares the modal interface. Modals are identifiers here.
- Network requests. Every fetch is an input. `GetHistory(100)` and the other player and queue calls are effects.
- `go SetVolume`, a fire-and-forget goroutine. The volume keys yield an `AdjustVolume(±5)` effect.
- The volume clamping of `Volume.Add` is not part of this model.
- `Paging`'s own code is not part of this model. `Offset` is current page times page size, and `SetTotalItems` records the total.
- The internals of the back-link holder are not part of this model. A back button with no link does nothing.
- The constructor gives no back callback to the latest-albums, favorite-albums, playlists and search screens (ui/widgets/window.go:91-92, 104, 117). Their back-link holder is taken to do nothing when pressed; what the holder does with a missing callback is not part of this model.
- Key-binding and configuration values are parameters.
- The artist list, song list, genre list, playlists list, queue, history and search widgets are not part of this model. Their screens are represented by the items they list and the page they were given.
- The search widget's `Clear` is modelled as emptying the result groups.
- Help page texts, the logo, `statsPage`, `SetStats`, banner texts and list-row texts are literal display text. Only their identities and headers are modelled.
- `playSong`, `playSongs`, `clearQueue`, `statusCb`, `InitBrowser`, `closeHelp` and `navBarHandler` only forward to collaborators or do nothing.
- The options dropdown in ui/widgets/artist_albums.go:326-339 registers its selected handler on the first option three times. The "Show similar" and "Open in browser" entries therefore get no handler, and "Instant mix" opens the artist in the browser. This is toolkit callback wiring and is not modelled.
- ArtistAlbums.SelectAlbum: the selected index is a natural number; a toolkit index of -1 would make the Go code panic.
- ArtistAlbums.InstantMixAt: the index is a natural number. An index of -1 passes the Go guard and would panic at ui/widgets/artist_albums.go:320.
- ArtistAlbums.SetAlbums: nil albums are not modelled. The Go code reads their fields and panics. Only album search results can produce them, and WindowHandlers.ShowSearchResults models that path as a panic.
- PlaylistWidget.Input: the selected index is a natural number, for the same reason.
- PlaylistWidget.Context: the selected index is a natural number, for the same reason.
- WindowHandlers.SelectAlbum: songs are not given the album's artist, because items are identities.
- WindowHandlers.ShowSongs and WindowHandlers.ShowSongPage: a failed fetch is taken to return no songs and a count of 0, as Go functions do on error.
- Character counts stand for Go's byte lengths in `printArtists`; multi-byte text is not modelled.

## Findings

| source | as written | input that shows it | evidently intended | confidence | as-written member | corrected member |
|---|---|---|---|---|---|---|
| ui/widgets/window.go:651-652 | `selectAlbum` sets the album screen's back-link to the current screen before switching, and the switch returns early when the album screen is already current | select an album while the album screen is shown: its back-link points at itself and back does nothing | keep the existing link; switching already sets it when the screen changes | medium, not executed | WindowHandlers.SelectAlbumSelfLink | WindowHandlers.SelectAlbumCorrected |
| ui/widgets/modal/help.go:181-184 | the GiB test repeats the MiB bound `bytes < 1024*1024*1024` | 1073741824 bytes formats to "" | 1073741824 formats to "1 GiB" | high, not executed | HelpModal.OneGiBFormatsEmpty | HelpModal.FormatBytesCorrected |
| ui/widgets/media_navigation.go:122-126 | the inside-the-inner-rectangle test sets -1 and the next line overwrites it | inner rectangle at (1,1) of size 20×5, click at y = 6 on the bottom border: row 5 is selected | clicks outside the inner rectangle select nothing | medium, not executed | MediaNavigation.BorderClickSelectsRow | MediaNavigation.ClickRowCorrected |
| ui/widgets/window.go:446-447 | `showModal` blurs the saved focus without a nil check, unlike `moveCtrl` | a new window, Tab, then the help key: Tab focuses the empty central slot and the blur dereferences nil | check the focus for nil before blurring, as `moveCtrl` does | medium, not executed | WindowHandlers.TabThenHelpPanics | Window.ShowModalGuarded |

=== FILE: artist_albums.dfy ===
/** The album-list screen (ui/widgets/artist_albums.go): a banner of buttons
    over a scroll list of album covers, with optional paging and an optional
    "similar" options menu. The scroll list's rows and the `albumCovers`
    backing slice are kept as two separate sequences so that the model can
    state that every operation keeps them in step. */
module ArtistAlbums {
  import opened Common
  import opened Models

  // ---------------------------------------------------------------------------
  // printArtists
  // ---------------------------------------------------------------------------

  /** Total number of characters in the names. */
  function SumLengths(names: seq<string>): nat {
    if |names| == 0 then 0 else SumLengths(names[..|names| - 1]) + |names[|names| - 1]|
  }

  /** Width the names take when written out with ", " between them. */
  function Width(names: seq<string>): nat {
    if |names| == 0 then 0 else SumLengths(names) + 2 * (|names| - 1)
  }

  /** The names separated by ", ". */
  function Join(names: seq<string>): string {
    if |names| == 0 then ""
    else Join(names[..|names| - 1]) + (if |names| > 1 then ", " else "") + names[|names| - 1]
  }

  /** The fallback text when the names do not fit: "<n> artists". */
  function CountText(n: nat): string {
    NatToString(n) + " artists"
  }

  lemma {:induction false} JoinLength(names: seq<string>)
    ensures |Join(names)| == Width(names)
  {
    if |names| == 1 {
      assert names[..0] == [];
      assert Join(names) == names[0];
      assert SumLengths(names) == |names[0]|;
    } else if |names| > 1 {
      var init := names[..|names| - 1];
      JoinLength(init);
      assert Width(names) == Width(init) + |names[|names| - 1]| + 2;
    }
  }

  /** Lay out artist names within `maxWidth` characters: all of them joined by
      ", " when they fit, else the count of artists when that fits, else
      nothing. One character stands for one byte of Go's `len`. */
  method PrintArtists(artists: seq<string>, maxWidth: int) returns (out: string)
    ensures Width(artists) <= maxWidth ==> out == Join(artists)
    ensures Width(artists) > maxWidth && |CountText(|artists|)| <= maxWidth ==> out == CountText(|artists|)
    ensures Width(artists) > maxWidth && |CountText(|artists|)| > maxWidth ==> out == ""
    ensures maxWidth >= 0 ==> |out| <= maxWidth
    ensures artists == [] ==> out == ""
  {
    var need := 0;
    var i := 0;
    while i < |artists|
      invariant 0 <= i <= |artists|
      invariant need == Width(artists[..i])
    {
      assert artists[..i + 1][..i] == artists[..i];
      need := need + |artists[i]|;
      if i > 0 {
        need := need + 2;
      }
      i := i + 1;
    }
    assert artists[..i] == artists;

    if need > maxWidth {
      out := CountText(|artists|);
      if |out| > maxWidth {
        return "";
      } else {
        return out;
      }
    }

    out := "";
    i := 0;
    while i < |artists|
      invariant 0 <= i <= |artists|
      invariant out == Join(artists[..i])
    {
      assert artists[..i + 1][..i] == artists[..i];
      if i > 0 {
        out := out + ", ";
      }
      out := out + artists[i];
      i := i + 1;
    }
    assert artists[..i] == artists;
    JoinLength(artists);
  }

  // ---------------------------------------------------------------------------
  // AlbumList state
  // ---------------------------------------------------------------------------

  /** The focusable controls of the banner. */
  datatype Control = BackButton | PlayButton | PagePrevious | PageNext | OptionsMenu | AlbumScroll

  /** An album cover: the album and the number printed in front of its name. */
  datatype Cover = Cover(album: Item, number: int)

  /** The artist whose albums the list shows, with the album count on the banner. */
  datatype ArtistHeader = ArtistHeader(artist: Item, albumCount: int)

  datatype AlbumList = AlbumList(
    rows: seq<Cover>,          // items of the scroll list
    covers: seq<Cover>,        // the albumCovers backing slice
    pagingEnabled: bool,
    similarEnabled: bool,
    artistMode: bool,
    page: Paging,
    selectorPage: int,         // page shown by the page selector
    selectables: seq<Control>, // focus order of the banner
    artist: Option<ArtistHeader>,
    hasSelectFunc: bool,
    hasSelectPageFunc: bool,
    hasContext: bool)

  /** The scroll list shows exactly the covers the backing slice holds. */
  predicate Synced(a: AlbumList) {
    a.rows == a.covers
  }

  /** Position of each control in the banner's focus order. */
  function Rank(c: Control): nat {
    match c
    case BackButton => 0
    case PlayButton => 1
    case PagePrevious => 2
    case PageNext => 3
    case OptionsMenu => 4
    case AlbumScroll => 5
  }

  /** Which controls the banner offers for the given toggles. */
  predicate Offered(c: Control, pagingEnabled: bool, similarEnabled: bool) {
    match c
    case PagePrevious => pagingEnabled
    case PageNext => pagingEnabled
    case OptionsMenu => similarEnabled
    case _ => true
  }

  /** The focus order `setButtons` builds: exactly the offered controls, each
      once, in banner order, starting with Back and Play and ending with the list. */
  function Controls(pagingEnabled: bool, similarEnabled: bool): (s: seq<Control>)
    ensures |s| == 3 + (if pagingEnabled then 2 else 0) + (if similarEnabled then 1 else 0)
    ensures s[0] == BackButton && s[1] == PlayButton && s[|s| - 1] == AlbumScroll
    ensures forall i :: 0 <= i < |s| ==> Offered(s[i], pagingEnabled, similarEnabled)
    ensures (PagePrevious in s) == pagingEnabled && (PageNext in s) == pagingEnabled
    ensures (OptionsMenu in s) == similarEnabled
    ensures forall i, j :: 0 <= i < j < |s| ==> Rank(s[i]) < Rank(s[j])
  {
    if pagingEnabled && similarEnabled then
      [BackButton, PlayButton, PagePrevious, PageNext, OptionsMenu, AlbumScroll]
    else if pagingEnabled then
      [BackButton, PlayButton, PagePrevious, PageNext, AlbumScroll]
    else if similarEnabled then
      [BackButton, PlayButton, OptionsMenu, AlbumScroll]
    else
      [BackButton, PlayButton, AlbumScroll]
  }

  /** The banner's focus order agrees with the current toggles. */
  predicate ButtonsCurrent(a: AlbumList) {
    a.selectables == Controls(a.pagingEnabled, a.similarEnabled)
  }

  /** The state `NewAlbumList` builds: paging and the similar menu on, the list
      empty, an empty placeholder artist, and the focus order rebuilt by
      `setButtons` at the end of the constructor. */
  function NewAlbumList(hasSelectFunc: bool, hasContext: bool): (a: AlbumList)
    ensures Synced(a) && ButtonsCurrent(a)
    ensures a.covers == [] && a.pagingEnabled && a.similarEnabled && !a.artistMode
    ensures a.selectables == [BackButton, PlayButton, PagePrevious, PageNext, OptionsMenu, AlbumScroll]
  {
    var initial := AlbumList(
      [], [], true, true, false, Paging(0, 0, 0), 0,
      [BackButton, PlayButton, OptionsMenu, PagePrevious, PageNext, AlbumScroll],
      Some(ArtistHeader(Item(ArtistType, ""), 0)),
      hasSelectFunc, false, hasContext);
    SetButtons(initial)
  }

  /** Rebuild the banner from the toggles. */
  function SetButtons(a: AlbumList): (r: AlbumList)
    ensures ButtonsCurrent(r)
    ensures r.(selectables := a.selectables) == a
  {
    a.(selectables := Controls(a.pagingEnabled, a.similarEnabled))
  }

  /** Everything except the covers and the rows is equal. */
  predicate SameSettings(a: AlbumList, b: AlbumList) {
    b.(rows := a.rows, covers := a.covers) == a
  }

  /** Drop every row and every cover, keeping the two in step. */
  function Clear(a: AlbumList): (r: AlbumList)
    ensures Synced(r) && r.covers == []
    ensures SameSettings(a, r)
  {
    a.(rows := [], covers := [])
  }

  /** Append one cover to the list and to the backing slice. */
  function AddAlbum(a: AlbumList, c: Cover): (r: AlbumList)
    ensures r.rows == a.rows + [c] && r.covers == a.covers + [c]
    ensures Synced(a) ==> Synced(r)
    ensures |r.covers| == |a.covers| + 1 && r.covers[|a.covers|] == c
    ensures r.covers[..|a.covers|] == a.covers
    ensures SameSettings(a, r)
  {
    a.(rows := a.rows + [c], covers := a.covers + [c])
  }

  /** Covers for `albums`, numbered consecutively from `first`. */
  function Numbered(albums: seq<Item>, first: int): (cs: seq<Cover>)
    ensures |cs| == |albums|
    ensures forall i :: 0 <= i < |albums| ==> cs[i] == Cover(albums[i], first + i)
  {
    if |albums| == 0 then [] else [Cover(albums[0], first)] + Numbered(albums[1..], first + 1)
  }

  /** Number of the first cover minus one: the page offset with paging on, 0 otherwise. */
  function CoverOffset(a: AlbumList): int {
    if a.pagingEnabled then a.page.Offset() else 0
  }

  /** Replace the content: one cover per album, in order, cover `i` numbered
      `offset + i + 1`; the rows show the same covers. */
  function SetAlbums(a: AlbumList, albums: seq<Item>): (r: AlbumList)
    ensures Synced(r) && SameSettings(a, r)
    ensures |r.covers| == |albums|
    ensures forall i :: 0 <= i < |albums| ==>
              r.covers[i].album == albums[i] && r.covers[i].number == CoverOffset(a) + i + 1
  {
    var cs := Numbered(albums, CoverOffset(a) + 1);
    a.(rows := cs, covers := cs)
  }

  /** Turn paging on or off; asking for the current setting changes nothing
      and does not rebuild the banner. */
  function EnablePaging(a: AlbumList, enabled: bool): (r: AlbumList)
    ensures r.pagingEnabled == enabled
    ensures a.pagingEnabled == enabled ==> r == a
    ensures a.pagingEnabled != enabled ==> r.selectables == Controls(enabled, a.similarEnabled)
    ensures r.(pagingEnabled := a.pagingEnabled, selectables := a.selectables) == a
  {
    if a.pagingEnabled && enabled then a
    else if !a.pagingEnabled && !enabled then a
    else SetButtons(a.(pagingEnabled := enabled))
  }

  /** Turn the similar menu on or off; the banner is always rebuilt. */
  function EnableSimilar(a: AlbumList, enabled: bool): (r: AlbumList)
    ensures r.similarEnabled == enabled && ButtonsCurrent(r)
    ensures r.(similarEnabled := a.similarEnabled, selectables := a.selectables) == a
  {
    SetButtons(a.(similarEnabled := enabled))
  }

  function EnableArtistMode(a: AlbumList, enabled: bool): (r: AlbumList)
    ensures r.artistMode == enabled
    ensures r.(artistMode := a.artistMode) == a
  {
    a.(artistMode := enabled)
  }

  /** Adopt a page request: the selector shows its page and later covers are
      numbered from its offset. */
  function SetPage(a: AlbumList, p: Paging): (r: AlbumList)
    ensures r.page == p && r.selectorPage == p.currentPage
    ensures r.(page := a.page, selectorPage := a.selectorPage) == a
  {
    a.(page := p, selectorPage := p.currentPage)
  }

  function SetArtist(a: AlbumList, artist: Option<ArtistHeader>): (r: AlbumList)
    ensures r.artist == artist
    ensures r.(artist := a.artist) == a
  {
    a.(artist := artist)
  }

  /** A page selector press: the list moves to page `n` and, when a page
      callback is set, hands exactly that updated page to it. */
  function SelectPage(a: AlbumList, n: int): (r: (AlbumList, Option<Paging>))
    ensures r.0.page.currentPage == n && r.0.selectorPage == n
    ensures r.0.page.pageSize == a.page.pageSize && r.0.page.totalItems == a.page.totalItems
    ensures r.0.(page := a.page, selectorPage := a.selectorPage) == a
    ensures r.1.Some? <==> a.hasSelectPageFunc
    ensures r.1.Some? ==> r.1.value == r.0.page
  {
    var moved := a.(selectorPage := n, page := a.page.(currentPage := n));
    (moved, if a.hasSelectPageFunc then Some(moved.page) else None)
  }

  /** Activating a row: the selected album is handed to the select callback
      only when the selected index names a cover. */
  function SelectAlbum(a: AlbumList, selected: nat): (r: Option<Item>)
    ensures r.Some? <==> a.hasSelectFunc && selected < |a.covers|
    ensures r.Some? ==> r.value == a.covers[selected].album
  {
    if a.hasSelectFunc && selected < |a.covers| then Some(a.covers[selected].album) else None
  }

  /** The "Instant mix" context action: mixes the album under `index` when
      there is one. */
  function InstantMixAt(a: AlbumList, index: nat): (r: Option<Item>)
    ensures r.Some? <==> a.hasContext && index < |a.covers|
    ensures r.Some? ==> r.value == a.covers[index].album
  {
    if index < |a.covers| && a.hasContext then Some(a.covers[index].album) else None
  }

  /** The list behind "latest albums": no paging, no similar menu. */
  function NewLatestAlbums(hasSelectFunc: bool, hasContext: bool): (a: AlbumList)
    ensures Synced(a) && ButtonsCurrent(a)
    ensures !a.pagingEnabled && !a.similarEnabled && !a.artistMode
    ensures a.selectables == [BackButton, PlayButton, AlbumScroll]
  {
    var a := NewAlbumList(hasSelectFunc, hasContext);
    EnableSimilar(EnablePaging(EnableArtistMode(a, false), false), false)
  }

  /** The list behind "favorite albums": paging kept on, no similar menu. */
  function NewFavoriteAlbums(hasSelectFunc: bool, hasContext: bool): (a: AlbumList)
    ensures Synced(a) && ButtonsCurrent(a)
    ensures a.pagingEnabled && !a.similarEnabled && !a.artistMode
    ensures a.selectables == [BackButton, PlayButton, PagePrevious, PageNext, AlbumScroll]
  {
    var a := NewAlbumList(hasSelectFunc, hasContext);
    EnableSimilar(EnablePaging(EnableArtistMode(a, false), true), false)
  }

  // ---------------------------------------------------------------------------
  // Properties relating several operations
  // ---------------------------------------------------------------------------

  /** Enabling paging twice is enabling it once. */
  lemma EnablePagingIdempotent(a: AlbumList, enabled: bool)
    ensures EnablePaging(EnablePaging(a, enabled), enabled) == EnablePaging(a, enabled)
  {
  }

  /** Every toggle keeps the banner's focus order in agreement with the toggles. */
  lemma TogglesKeepButtonsCurrent(a: AlbumList, enabled: bool)
    requires ButtonsCurrent(a)
    ensures ButtonsCurrent(EnablePaging(a, enabled))
    ensures ButtonsCurrent(EnableSimilar(a, enabled))
    ensures ButtonsCurrent(EnableArtistMode(a, enabled))
  {
  }

  /** Selecting row `i` right after `SetAlbums(albums)` selects `albums[i]`. */
  lemma SelectAfterSetAlbums(a: AlbumList, albums: seq<Item>, i: nat)
    requires a.hasSelectFunc && i < |albums|
    ensures SelectAlbum(SetAlbums(a, albums), i) == Some(albums[i])
  {
  }

  /** Right after `SetAlbums(albums)`, the instant mix of row `i` is `albums[i]`,
      and no row past the end mixes anything. */
  lemma InstantMixAfterSetAlbums(a: AlbumList, albums: seq<Item>, i: nat)
    requires a.hasContext
    ensures i < |albums| ==> InstantMixAt(SetAlbums(a, albums), i) == Some(albums[i])
    ensures i >= |albums| ==> InstantMixAt(SetAlbums(a, albums), i) == None
  {
  }

  /** After `Clear` no row selects anything. */
  lemma SelectAfterClear(a: AlbumList, i: nat)
    ensures SelectAlbum(Clear(a), i) == None
  {
  }

  /** Within one page, cover numbers strictly increase, so no two covers
      of the page share a number. */
  lemma {:induction false} CoverNumbersDistinct(a: AlbumList, albums: seq<Item>, i: nat, j: nat)
    requires i < j < |albums|
    ensures SetAlbums(a, albums).covers[i].number < SetAlbums(a, albums).covers[j].number
  {
  }
}

=== FILE: common.dfy ===
/** Shared helpers: an Option type standing in for Go's nil-able pointers and
    callbacks, and the decimal rendering that fmt's `%d` verb performs. */
module Common {

  datatype Option<+T> = None | Some(value: T)

  predicate IsDigit(c: char) {
    '0' <= c <= '9'
  }

  function DigitChar(d: nat): (c: char)
    requires d < 10
    ensures IsDigit(c)
  {
    ['0', '1', '2', '3', '4', '5', '6', '7', '8', '9'][d]
  }

  function DigitValue(c: char): (d: nat)
    requires IsDigit(c)
    ensures d < 10
  {
    (c as int - '0' as int) as nat
  }

  /** Decimal rendering of a natural number, as `fmt.Sprint` / `%d` print it. */
  function NatToString(n: nat): (s: string)
    ensures |s| >= 1
    ensures forall i :: 0 <= i < |s| ==> IsDigit(s[i])
    ensures |s| > 1 ==> s[0] != '0'
  {
    if n < 10 then [DigitChar(n)]
    else NatToString(n / 10) + [DigitChar(n % 10)]
  }

  /** Decimal rendering of a signed integer: a leading '-' for negatives. */
  function IntToString(i: int): (s: string)
    ensures i >= 0 ==> s == NatToString(i)
    ensures i < 0 ==> s == "-" + NatToString(-i)
  {
    if i < 0 then "-" + NatToString(-i) else NatToString(i)
  }

  /** The value a string of decimal digits denotes. */
  function ParseNat(s: string): (n: nat)
    requires forall i :: 0 <= i < |s| ==> IsDigit(s[i])
  {
    if |s| == 0 then 0
    else ParseNat(s[..|s| - 1]) * 10 + DigitValue(s[|s| - 1])
  }

  lemma DigitRoundTrip(d: nat)
    requires d < 10
    ensures DigitValue(DigitChar(d)) == d
  {
  }

  /** Rendering a number in decimal loses nothing: parsing it back gives the number. */
  lemma {:induction false} NatToStringRoundTrip(n: nat)
    ensures ParseNat(NatToString(n)) == n
  {
    var s := NatToString(n);
    if n < 10 {
      DigitRoundTrip(n);
      assert s[..|s| - 1] == [];
    } else {
      NatToStringRoundTrip(n / 10);
      assert s[..|s| - 1] == NatToString(n / 10);
      DigitRoundTrip(n % 10);
    }
  }

  /** Two numbers render the same only when they are equal. */
  lemma NatToStringInjective(a: nat, b: nat)
    requires NatToString(a) == NatToString(b)
    ensures a == b
  {
    NatToStringRoundTrip(a);
    NatToStringRoundTrip(b);
  }
}

=== FILE: handlers.dfy ===
/** The root window's handlers (ui/widgets/window.go): global key dispatch,
    the media-navigation selection, and the callbacks that fetch items from
    the item collaborator and switch the central slot. Every fetch is an input
    (`Fetched(value)` or `FetchError`); what the handlers ask of the player and
    the queue comes back as a list of effects. */
module WindowHandlers {
  import opened Common
  import opened Models
  import AA = ArtistAlbums
  import HM = HelpModal
  import PW = PlaylistWidget
  import MN = MediaNavigation
  import W = Window

  /** Which handler the songs screen's page buttons call. */
  datatype SongPager = AllSongs | RecentSongs

  /** The window and the widgets the handlers fill. Screens whose widgets are
      not modelled in detail (artists, songs, genres, playlists, album songs)
      are represented by the items they list and the page they were given. */
  datatype App = App(
    win: W.Window,
    albumList: AA.AlbumList,
    similarAlbums: AA.AlbumList,
    latestAlbums: AA.AlbumList,
    favoriteAlbums: AA.AlbumList,
    playlist: PW.PlaylistView,
    nav: MN.Navigation,
    help: HM.Help,
    shown: map<W.Screen, seq<Item>>,
    pages: map<W.Screen, Paging>,
    album: Option<Item>,        // the album the album screen shows
    albumArtist: Option<Item>,  // the artist on the album screen's banner
    songPager: SongPager,
    searchResults: seq<(ItemType, seq<Item>)>,
    message: string)

  /** What the handlers ask of the media player, the queue and the application. */
  datatype Effect =
    | StopMedia
    | ClearQueue(stopPlayback: bool)
    | PlayPause
    | AdjustVolume(delta: int)
    | NextTrack
    | PreviousTrack
    | Seek(ticks: int)
    | StopApp
    | GetHistory(limit: nat)

  /** A handler's result: the state afterwards, or a Go panic, which ends
      the program. */
  datatype Outcome = Continue(app: App) | Panic

  /** The configured key bindings: the global media keys and the navigation-bar keys. */
  datatype KeyBinds = KeyBinds(
    stop: Key, playPause: Key, volumeDown: Key, volumeUp: Key,
    next: Key, previous: Key, forward: Key, backward: Key,
    quit: Key, help: Key, search: Key, queue: Key, history: Key)

  /** The configuration the handlers read. */
  datatype Config = Config(
    keys: KeyBinds,
    defaultPaging: Paging,       // what `DefaultPaging()` returns
    limitRecentlyPlayed: bool)

  /** The state every reachable window is in. */
  predicate ListOk(a: AA.AlbumList) {
    AA.Synced(a) && AA.ButtonsCurrent(a)
  }

  predicate Inv(app: App) {
    && W.ModalConsistent(app.win)
    && ListOk(app.albumList) && ListOk(app.similarAlbums)
    && ListOk(app.latestAlbums) && ListOk(app.favoriteAlbums)
    && HM.Valid(app.help)
  }

  /** The window as the constructor builds it. */
  function NewApp(): (app: App)
    ensures Inv(app)
    ensures app.win.mediaView == None && app.win.focus == W.OnMediaNav && !app.win.hasModal
    ensures app.albumList.hasSelectPageFunc && !app.similarAlbums.pagingEnabled
    ensures app.songPager == AllSongs && app.searchResults == []
  {
    var similar := AA.EnablePaging(AA.NewAlbumList(true, true), false);
    App(W.NewWindow(),
        AA.NewAlbumList(true, true).(hasSelectPageFunc := true),
        similar,
        AA.NewLatestAlbums(true, true),
        AA.NewFavoriteAlbums(true, true),
        PW.NewPlaylistView(true, true, true),
        MN.NewMediaNavigation(true),
        HM.NewHelp(),
        map[], map[], None, None, AllSongs, [], "")
  }

  /** The albums an album list shows, in order. */
  function Albums(a: AA.AlbumList): (s: seq<Item>)
    ensures |s| == |a.covers|
    ensures forall i :: 0 <= i < |s| ==> s[i] == a.covers[i].album
  {
    seq(|a.covers|, i requires 0 <= i < |a.covers| => a.covers[i].album)
  }

  /** The items screen `s` lists; nothing for a screen never filled. */
  function Listed(app: App, s: W.Screen): seq<Item> {
    if s in app.shown then app.shown[s] else []
  }

  function Show(app: App, s: W.Screen, updatePrevious: bool): App {
    app.(win := W.SetViewWidget(app.win, s, updatePrevious))
  }

  function Count(app: App, m: MN.MediaSelect, n: int): App {
    app.(nav := MN.SetCount(app.nav, m, n))
  }

  /** Go's `uint(int)` conversion: a negative value wraps around. */
  function ToUint(i: int): (u: nat)
    ensures u < 0x1_0000_0000_0000_0000
    ensures 0 <= i < 0x1_0000_0000_0000_0000 ==> u == i
    ensures -0x8000_0000_0000_0000 <= i < 0 ==> u == i + 0x1_0000_0000_0000_0000
  {
    i % 0x1_0000_0000_0000_0000
  }

  /** Go's `v.(*T)` with the ok form: items of another kind become nil. */
  function Cast(items: seq<Item>, kind: ItemType): (r: seq<Item>)
    ensures |r| == |items|
    ensures forall i :: 0 <= i < |items| ==>
              r[i] == (if items[i].Item? && items[i].kind == kind then items[i] else Nil)
  {
    seq(|items|, i requires 0 <= i < |items| =>
      if items[i].Item? && items[i].kind == kind then items[i] else Nil)
  }

  // ---------------------------------------------------------------------------
  // Modals
  // ---------------------------------------------------------------------------

  /** A window's modal request carried over to the whole state. */
  function WithOpening(app: App, o: W.Opening): Outcome {
    match o
    case Opened(win) => Continue(app.(win := win))
    case NilBlurPanic => Panic
  }

  /** A message dialog: the text is replaced first, then the dialog is opened;
      -1 for either size means the default 25 rows by 50 columns. Opening it
      while nothing holds the focus panics. */
  function ShowMessage(app: App, msg: string, height: int, width: int, lockSize: bool): (r: Outcome)
    ensures r.Panic? <==> !app.win.hasModal && app.win.focus == W.NoFocus
    ensures var h := if height == -1 then 25 else height;
            var w := if width == -1 then 50 else width;
            r.Continue? ==> W.ShowModal(app.win, W.MessageDialog, ToUint(h), ToUint(w), lockSize) == W.Opened(r.app.win)
    ensures r.Continue? ==> r.app.message == msg && r.app == app.(message := msg, win := r.app.win)
    ensures r.Continue? && !app.win.hasModal && !lockSize && height == -1 && width == -1 ==>
              r.app.win.placement == Some(W.Fixed(25, 50))
    ensures app.win.hasModal ==> r == Continue(app.(message := msg))
    ensures r.Continue? ==> Inv(app) ==> Inv(r.app)
  {
    var h := if height == -1 then 25 else height;
    var w := if width == -1 then 50 else width;
    WithOpening(app.(message := msg), W.ShowModal(app.win, W.MessageDialog, ToUint(h), ToUint(w), lockSize))
  }

  /** A key the help dialog received: its page handling, with Escape wired to
      closing whichever modal is open. */
  function HelpKey(app: App, key: Key): (r: (App, HM.Reaction))
    ensures key == KeyEscape ==> r.0 == app.(win := W.CloseModal(app.win)) && r.1 == HM.CloseRequested
    ensures key != KeyEscape ==> r.0.win == app.win && r.0 == app.(help := r.0.help)
    ensures key == KeyEscape && app.win.hasModal ==> !r.0.win.hasModal && r.0.win.focus == app.win.lastFocus
    ensures Inv(app) ==> Inv(r.0)
  {
    var (h, reaction) := HM.Input(app.help, key);
    var win := if reaction == HM.CloseRequested then W.CloseModal(app.win) else app.win;
    (app.(help := h, win := win), reaction)
  }

  // ---------------------------------------------------------------------------
  // Keys
  // ---------------------------------------------------------------------------

  function MediaKeys(kb: KeyBinds): seq<Key> {
    [kb.stop, kb.playPause, kb.volumeDown, kb.volumeUp, kb.next, kb.previous, kb.forward, kb.backward]
  }

  function NavKeys(kb: KeyBinds): seq<Key> {
    [kb.quit, kb.help, kb.search, kb.queue, kb.history]
  }

  /** The global media keys, tried in binding order; the first match wins.
      Volume steps by 5 and seeking by 3000 ticks. */
  function MediaCtrl(kb: KeyBinds, key: Key): (r: Option<seq<Effect>>)
    ensures r.Some? <==> key in MediaKeys(kb)
    ensures key == kb.stop ==> r == Some([StopMedia, ClearQueue(true)])
    ensures r.Some? ==> |r.value| >= 1
    ensures r.Some? && key != kb.stop ==> |r.value| == 1
  {
    if key == kb.stop then Some([StopMedia, ClearQueue(true)])
    else if key == kb.playPause then Some([PlayPause])
    else if key == kb.volumeDown then Some([AdjustVolume(-5)])
    else if key == kb.volumeUp then Some([AdjustVolume(5)])
    else if key == kb.next then Some([NextTrack])
    else if key == kb.previous then Some([PreviousTrack])
    else if key == kb.forward then Some([Seek(3000)])
    else if key == kb.backward then Some([Seek(-3000)])
    else None
  }

  /** Close the help dialog when it holds the focus. */
  function CloseHelpIfFocused(w: W.Window): (r: W.Window)
    ensures w.focus == W.OnModal(W.HelpDialog) ==> r == W.CloseModal(w)
    ensures w.focus != W.OnModal(W.HelpDialog) ==> r == w
  {
    if w.focus == W.OnModal(W.HelpDialog) then W.CloseModal(w) else w
  }

  /** The navigation-bar keys, tried in binding order. The help key opens
      the help dialog, which panics when nothing holds the focus. */
  function NavBarCtrl(app: App, kb: KeyBinds, key: Key): (r: Option<(Outcome, seq<Effect>)>)
    ensures r.Some? <==> key in NavKeys(kb)
    ensures key == kb.quit ==> r == Some((Continue(app), [StopApp]))
    ensures key != kb.quit && key == kb.help ==>
              r == Some((WithOpening(app, W.ShowModal(app.win, W.HelpDialog, 25, 50, true)), []))
    ensures key !in [kb.quit, kb.help] && key == kb.search ==>
              r.value.1 == [] && r.value.0.Continue? && r.value.0.app.searchResults == []
              && r.value.0.app.win == W.SetViewWidget(app.win, W.SearchView, true)
    ensures key !in [kb.quit, kb.help, kb.search] && key == kb.queue ==>
              r == Some((Continue(app.(win := W.SetViewWidget(CloseHelpIfFocused(app.win), W.QueueView, true))), []))
    ensures key !in [kb.quit, kb.help, kb.search, kb.queue] && key == kb.history ==>
              r == Some((Continue(app.(win := W.SetViewWidget(CloseHelpIfFocused(app.win), W.HistoryView, true))),
                         [GetHistory(100)]))
    ensures r.Some? && r.value.0.Panic? <==>
              key != kb.quit && key == kb.help && !app.win.hasModal && app.win.focus == W.NoFocus
    ensures r.Some? && r.value.0.Continue? ==> Inv(app) ==> Inv(r.value.0.app)
  {
    if key == kb.quit then Some((Continue(app), [StopApp]))
    else if key == kb.help then
      Some((WithOpening(app, W.ShowModal(app.win, W.HelpDialog, 25, 50, true)), []))
    else if key == kb.search then
      Some((Continue(Show(app.(searchResults := []), W.SearchView, true)), []))
    else if key == kb.queue then
      Some((Continue(app.(win := W.SetViewWidget(CloseHelpIfFocused(app.win), W.QueueView, true))), []))
    else if key == kb.history then
      Some((Continue(app.(win := W.SetViewWidget(CloseHelpIfFocused(app.win), W.HistoryView, true))),
            [GetHistory(100)]))
    else None
  }

  /** What the input capture does with a key: the outcome, the effects, and
      the key handed on to the focused primitive (`None` when consumed). */
  datatype KeyResult = KeyResult(outcome: Outcome, effects: seq<Effect>, passed: Option<Key>)

  /** The window's input capture: media keys first, then the navigation bar,
      then Tab; anything else is handed on unchanged. The only key that can
      panic is the help key, when nothing holds the focus. */
  function KeyHandler(app: App, kb: KeyBinds, key: Key): (r: KeyResult)
    ensures r.passed.None? <==> key in MediaKeys(kb) || key in NavKeys(kb) || key == KeyTab
    ensures r.passed.Some? ==> r == KeyResult(Continue(app), [], Some(key))
    ensures key in MediaKeys(kb) ==> r.outcome == Continue(app) && Some(r.effects) == MediaCtrl(kb, key)
    ensures key !in MediaKeys(kb) && key in NavKeys(kb) ==> Some((r.outcome, r.effects)) == NavBarCtrl(app, kb, key)
    ensures key !in MediaKeys(kb) && key !in NavKeys(kb) && key == KeyTab ==>
              r.outcome == Continue(app.(win := W.MoveCtrl(app.win))) && r.effects == []
    ensures r.outcome.Panic? <==>
              key !in MediaKeys(kb) && key != kb.quit && key == kb.help
              && !app.win.hasModal && app.win.focus == W.NoFocus
    ensures r.outcome.Continue? ==> Inv(app) ==> Inv(r.outcome.app)
  {
    match MediaCtrl(kb, key)
    case Some(effects) => KeyResult(Continue(app), effects, None)
    case None =>
      match NavBarCtrl(app, kb, key)
      case Some((next, effects)) => KeyResult(next, effects, None)
      case None =>
        if key == KeyTab then KeyResult(Continue(app.(win := W.MoveCtrl(app.win))), [], None)
        else KeyResult(Continue(app), [], Some(key))
  }

  /** No two bindings share a key and none of them is Tab. */
  predicate BindingsDistinct(kb: KeyBinds) {
    var all := MediaKeys(kb) + NavKeys(kb) + [KeyTab];
    forall i, j :: 0 <= i < j < |all| ==> all[i] != all[j]
  }

  /** With distinct bindings each media key performs its own action, and the
      two volume keys and the two seek keys undo each other. */
  lemma MediaKeysEachAct(kb: KeyBinds)
    requires BindingsDistinct(kb)
    ensures MediaCtrl(kb, kb.playPause) == Some([PlayPause])
    ensures MediaCtrl(kb, kb.volumeDown) == Some([AdjustVolume(-5)])
    ensures MediaCtrl(kb, kb.volumeUp) == Some([AdjustVolume(5)])
    ensures MediaCtrl(kb, kb.next) == Some([NextTrack])
    ensures MediaCtrl(kb, kb.previous) == Some([PreviousTrack])
    ensures MediaCtrl(kb, kb.forward) == Some([Seek(3000)])
    ensures MediaCtrl(kb, kb.backward) == Some([Seek(-3000)])
    ensures MediaCtrl(kb, kb.volumeDown).value[0].delta + MediaCtrl(kb, kb.volumeUp).value[0].delta == 0
    ensures MediaCtrl(kb, kb.forward).value[0].ticks + MediaCtrl(kb, kb.backward).value[0].ticks == 0
  {
    var all := MediaKeys(kb) + NavKeys(kb) + [KeyTab];
    assert all[0] == kb.stop && all[1] == kb.playPause && all[2] == kb.volumeDown && all[3] == kb.volumeUp;
    assert all[4] == kb.next && all[5] == kb.previous && all[6] == kb.forward && all[7] == kb.backward;
  }

  /** With distinct bindings, the help key opens the help dialog over a
      window with no modal and a focused primitive, and Escape in the dialog
      closes it again and gives the focus back. */
  lemma HelpOpenThenEscape(app: App, kb: KeyBinds)
    requires Inv(app) && !app.win.hasModal && app.win.focus != W.NoFocus && BindingsDistinct(kb)
    ensures var afterKey := KeyHandler(app, kb, kb.help);
            && afterKey.outcome.Continue? && afterKey.passed == None && afterKey.effects == []
            && afterKey.outcome.app.win.focus == W.OnModal(W.HelpDialog)
            && HelpKey(afterKey.outcome.app, KeyEscape).0 == app.(win := app.win.(lastFocus := W.NoFocus))
  {
    TabAndHelpAreNavigation(kb);
    W.ShowThenClose(app.win, W.HelpDialog, 25, 50, true);
  }

  /** From the window as built, Tab moves the focus to the central slot,
      which is still empty, so nothing holds the focus; the help key then
      blurs the nil focus and panics. */
  lemma TabThenHelpPanics(kb: KeyBinds)
    requires BindingsDistinct(kb)
    ensures var t := KeyHandler(NewApp(), kb, KeyTab);
            && t.outcome.Continue? && t.outcome.app.win.focus == W.NoFocus
            && KeyHandler(t.outcome.app, kb, kb.help).outcome == Panic
  {
    TabAndHelpAreNavigation(kb);
    var app := NewApp();
    assert !app.win.mediaViewSelected && !app.win.hasModal;
    var t := KeyHandler(app, kb, KeyTab);
    assert t.outcome == Continue(app.(win := W.MoveCtrl(app.win)));
    var tabbed := t.outcome.app;
    assert tabbed.win.focus == W.NoFocus && !tabbed.win.hasModal;
  }

  /** With distinct bindings, Tab is neither a media nor a navigation key, and
      the help key is a navigation key other than Quit. */
  lemma TabAndHelpAreNavigation(kb: KeyBinds)
    requires BindingsDistinct(kb)
    ensures KeyTab !in MediaKeys(kb) && KeyTab !in NavKeys(kb)
    ensures kb.help !in MediaKeys(kb) && kb.help in NavKeys(kb) && kb.help != kb.quit
  {
    var all := MediaKeys(kb) + NavKeys(kb) + [KeyTab];
    assert all[9] == kb.help && all[13] == KeyTab;
    assert KeyTab !in MediaKeys(kb) && KeyTab !in NavKeys(kb) by {
      forall i | 0 <= i < 8 ensures MediaKeys(kb)[i] != KeyTab {
        assert all[i] == MediaKeys(kb)[i];
      }
      forall i | 0 <= i < 5 ensures NavKeys(kb)[i] != KeyTab {
        assert all[8 + i] == NavKeys(kb)[i];
      }
    }
    assert kb.help !in MediaKeys(kb) by {
      forall i | 0 <= i < 8 ensures MediaKeys(kb)[i] != kb.help {
        assert all[i] == MediaKeys(kb)[i];
      }
    }
    assert kb.help != kb.quit by { assert all[8] == kb.quit; }
  }

  /** With distinct bindings, the queue key pressed while the help dialog
      holds the focus closes it and shows the queue. */
  lemma QueueClosesFocusedHelp(app: App, kb: KeyBinds)
    requires Inv(app) && app.win.focus == W.OnModal(W.HelpDialog) && app.win.hasModal
    requires BindingsDistinct(kb)
    ensures var r := KeyHandler(app, kb, kb.queue);
            && r.outcome.Continue? && r.passed == None
            && !r.outcome.app.win.hasModal && r.outcome.app.win.mediaView == Some(W.QueueView)
  {
    var all := MediaKeys(kb) + NavKeys(kb) + [KeyTab];
    assert all[11] == kb.queue;
    assert kb.queue !in MediaKeys(kb) by {
      forall i | 0 <= i < 8 ensures MediaKeys(kb)[i] != kb.queue {
        assert all[i] == MediaKeys(kb)[i];
      }
    }
    assert kb.queue !in [kb.quit, kb.help, kb.search] by {
      assert all[8] == kb.quit && all[9] == kb.help && all[10] == kb.search;
    }
  }

  // ---------------------------------------------------------------------------
  // Media navigation selection
  // ---------------------------------------------------------------------------

  /** "Latest music": the albums go into the latest-albums list under a
      pseudo artist with an empty id that carries the album count; its
      name, "Latest albums", is display text and not part of this model. */
  function ShowLatestMusic(app: App, resp: Fetch<seq<Item>>): (r: App)
    ensures resp.FetchError? ==> r == app
    ensures resp.Fetched? ==>
              && Albums(r.latestAlbums) == resp.value
              && r.latestAlbums.artist == Some(AA.ArtistHeader(Item(ArtistType, ""), |resp.value|))
              && r.nav == MN.SetCount(app.nav, MN.LatestMusic, |resp.value|)
              && r.win == W.SetViewWidget(app.win, W.LatestAlbumsView, true)
              && r == app.(latestAlbums := r.latestAlbums, nav := r.nav, win := r.win)
    ensures Inv(app) ==> Inv(r)
  {
    match resp
    case FetchError => app
    case Fetched(albums) =>
      var list := AA.SetArtist(AA.SetAlbums(AA.Clear(app.latestAlbums), albums),
                               Some(AA.ArtistHeader(Item(ArtistType, ""), |albums|)));
      Show(Count(app.(latestAlbums := list), MN.LatestMusic, |albums|), W.LatestAlbumsView, true)
  }

  /** "Favorite artists". */
  function ShowFavoriteArtists(app: App, resp: Fetch<seq<Item>>): (r: App)
    ensures resp.FetchError? ==> r == app
    ensures resp.Fetched? ==>
              && Listed(r, W.ArtistsView) == resp.value
              && r.nav == MN.SetCount(app.nav, MN.FavoriteArtists, |resp.value|)
              && r.win == W.SetViewWidget(app.win, W.ArtistsView, true)
              && r == app.(shown := r.shown, nav := r.nav, win := r.win)
    ensures Inv(app) ==> Inv(r)
  {
    match resp
    case FetchError => app
    case Fetched(artists) =>
      Show(Count(app.(shown := app.shown[W.ArtistsView := artists]), MN.FavoriteArtists, |artists|),
           W.ArtistsView, true)
  }

  /** "Playlists". */
  function ShowPlaylists(app: App, resp: Fetch<seq<Item>>): (r: App)
    ensures resp.FetchError? ==> r == app
    ensures resp.Fetched? ==>
              && Listed(r, W.PlaylistsView) == resp.value
              && r.nav == MN.SetCount(app.nav, MN.Playlists, |resp.value|)
              && r.win == W.SetViewWidget(app.win, W.PlaylistsView, true)
              && r == app.(shown := r.shown, nav := r.nav, win := r.win)
    ensures Inv(app) ==> Inv(r)
  {
    match resp
    case FetchError => app
    case Fetched(playlists) =>
      Show(Count(app.(shown := app.shown[W.PlaylistsView := playlists]), MN.Playlists, |playlists|),
           W.PlaylistsView, true)
  }

  /** "Songs" and "Recently played": the first page of songs. The songs
      screen is shown even when the fetch fails, then empty with a total of 0.
      The count of recently played songs is not written when that list is
      limited by configuration. */
  function ShowSongs(app: App, cfg: Config, recent: bool, resp: Fetch<(seq<Item>, int)>): (r: App)
    ensures r.win == W.SetViewWidget(app.win, W.SongsView, true)
    ensures W.SongsView in r.pages && r.pages[W.SongsView].totalItems == (if resp.Fetched? then resp.value.1 else 0)
    ensures Listed(r, W.SongsView) == (if resp.Fetched? then resp.value.0 else [])
    ensures resp.FetchError? ==> r.songPager == app.songPager && r.nav == app.nav
    ensures resp.Fetched? ==> r.songPager == (if recent then RecentSongs else AllSongs)
    ensures resp.Fetched? && !(recent && cfg.limitRecentlyPlayed) ==>
              r.nav == MN.SetCount(app.nav, if recent then MN.Recent else MN.Songs, resp.value.1)
    ensures resp.Fetched? && recent && cfg.limitRecentlyPlayed ==> r.nav == app.nav
    ensures r == app.(shown := r.shown, pages := r.pages, nav := r.nav, win := r.win, songPager := r.songPager)
    ensures Inv(app) ==> Inv(r)
  {
    var m := if recent then MN.Recent else MN.Songs;
    var (songs, count, a) :=
      match resp
      case FetchError => ([], 0, app)
      case Fetched((songs, count)) =>
        var pager := app.(songPager := if recent then RecentSongs else AllSongs);
        (songs, count, if recent && cfg.limitRecentlyPlayed then pager else Count(pager, m, count));
    var page := cfg.defaultPaging.SetTotalItems(count);
    Show(a.(shown := a.shown[W.SongsView := songs], pages := a.pages[W.SongsView := page]), W.SongsView, true)
  }

  /** "Artists" and "Album artists": the first page of artists with paging on. */
  function ShowArtists(app: App, cfg: Config, albumArtists: bool, resp: Fetch<(seq<Item>, int)>): (r: App)
    ensures resp.FetchError? ==> r == app
    ensures resp.Fetched? ==>
              && Listed(r, W.ArtistsView) == resp.value.0
              && r.pages == app.pages[W.ArtistsView := cfg.defaultPaging.SetTotalItems(resp.value.1)]
              && r.nav == MN.SetCount(app.nav, if albumArtists then MN.AlbumArtists else MN.Artists, resp.value.1)
              && r.win == W.SetViewWidget(app.win, W.ArtistsView, true)
              && r == app.(shown := r.shown, pages := r.pages, nav := r.nav, win := r.win)
    ensures Inv(app) ==> Inv(r)
  {
    match resp
    case FetchError => app
    case Fetched((artists, total)) =>
      var m := if albumArtists then MN.AlbumArtists else MN.Artists;
      var paging := cfg.defaultPaging.SetTotalItems(total);
      var a := Count(app, m, total);
      Show(a.(shown := a.shown[W.ArtistsView := artists], pages := a.pages[W.ArtistsView := paging]),
           W.ArtistsView, true)
  }

  /** Load a page of albums into a list the way the album categories do. */
  function LoadAlbums(list: AA.AlbumList, paging: Paging, albums: seq<Item>): (r: AA.AlbumList)
    ensures Albums(r) == albums
    ensures r.page == paging && !r.similarEnabled && !r.artistMode
    ensures r.pagingEnabled == list.pagingEnabled
    ensures forall i :: 0 <= i < |albums| ==> r.covers[i].number == AA.CoverOffset(r) + i + 1
    ensures ListOk(list) ==> ListOk(r)
  {
    AA.SetAlbums(AA.EnableArtistMode(AA.EnableSimilar(AA.Clear(AA.SetPage(list, paging)), false), false), albums)
  }

  /** "Albums": paging is switched on in the main album list after the
      fetch returns and before its error is checked, so a failed fetch still
      changes it. */
  function ShowAllAlbums(app: App, cfg: Config, resp: Fetch<(seq<Item>, int)>): (r: App)
    ensures r.albumList.pagingEnabled
    ensures resp.FetchError? ==> r.win == app.win
    ensures resp.FetchError? ==> r == app.(albumList := AA.EnablePaging(app.albumList, true))
    ensures resp.Fetched? ==>
              && Albums(r.albumList) == resp.value.0
              && r.albumList.page == cfg.defaultPaging.SetTotalItems(resp.value.1)
              && r.nav == MN.SetCount(app.nav, MN.Albums, resp.value.1)
              && r.win == W.SetViewWidget(app.win, W.AlbumsView, true)
              && r == app.(albumList := r.albumList, nav := r.nav, win := r.win)
    ensures Inv(app) ==> Inv(r)
  {
    var before := app.(albumList := AA.EnablePaging(app.albumList, true));
    assert Inv(app) ==> Inv(before) by {
      if Inv(app) { AA.TogglesKeepButtonsCurrent(app.albumList, true); }
    }
    match resp
    case FetchError => before
    case Fetched((albums, total)) =>
      Show(Count(before.(albumList := LoadAlbums(before.albumList, cfg.defaultPaging.SetTotalItems(total), albums)),
                 MN.Albums, total), W.AlbumsView, true)
  }

  /** "Favorite albums": the page size is 200 and the favorite list is the one
      filled and switched to, but it is the main album list whose paging is
      switched off, after the fetch returns and before its error is checked. */
  function ShowFavoriteAlbums(app: App, cfg: Config, resp: Fetch<(seq<Item>, int)>): (r: App)
    ensures !r.albumList.pagingEnabled
    ensures resp.FetchError? ==> r.win == app.win
    ensures resp.FetchError? ==> r == app.(albumList := AA.EnablePaging(app.albumList, false))
    ensures resp.Fetched? ==>
              && Albums(r.favoriteAlbums) == resp.value.0
              && r.favoriteAlbums.page == cfg.defaultPaging.(pageSize := 200).SetTotalItems(resp.value.1)
              && r.favoriteAlbums.pagingEnabled == app.favoriteAlbums.pagingEnabled
              && r.nav == MN.SetCount(app.nav, MN.FavoriteAlbums, resp.value.1)
              && r.win == W.SetViewWidget(app.win, W.FavoriteAlbumsView, true)
              && r == app.(albumList := r.albumList, favoriteAlbums := r.favoriteAlbums, nav := r.nav, win := r.win)
    ensures Inv(app) ==> Inv(r)
  {
    var before := app.(albumList := AA.EnablePaging(app.albumList, false));
    assert Inv(app) ==> Inv(before) by {
      if Inv(app) { AA.TogglesKeepButtonsCurrent(app.albumList, false); }
    }
    match resp
    case FetchError => before
    case Fetched((albums, total)) =>
      var page := cfg.defaultPaging.(pageSize := 200).SetTotalItems(total);
      Show(Count(before.(favoriteAlbums := LoadAlbums(before.favoriteAlbums, page, albums)),
                 MN.FavoriteAlbums, total), W.FavoriteAlbumsView, true)
  }

  /** A page of genres: the genres screen is filled and switched to. */
  function ShowGenrePage(app: App, paging: Paging, resp: Fetch<(seq<Item>, int)>): (r: App)
    ensures resp.FetchError? ==> r == app
    ensures resp.Fetched? ==>
              && Listed(r, W.GenresView) == resp.value.0
              && r.pages == app.pages[W.GenresView := paging.SetTotalItems(resp.value.1)]
              && r.win == W.SetViewWidget(app.win, W.GenresView, true)
              && r == app.(shown := r.shown, pages := r.pages, win := r.win)
    ensures Inv(app) ==> Inv(r)
  {
    match resp
    case FetchError => app
    case Fetched((genres, n)) =>
      Show(app.(shown := app.shown[W.GenresView := genres],
                pages := app.pages[W.GenresView := paging.SetTotalItems(n)]), W.GenresView, true)
  }

  /** What the item collaborator answers for each category's request. */
  datatype Catalogue = Catalogue(
    latestAlbums: Fetch<seq<Item>>,
    favoriteArtists: Fetch<seq<Item>>,
    playlists: Fetch<seq<Item>>,
    songs: Fetch<(seq<Item>, int)>,
    recentlyPlayed: Fetch<(seq<Item>, int)>,
    artists: Fetch<(seq<Item>, int)>,
    albumArtists: Fetch<(seq<Item>, int)>,
    albums: Fetch<(seq<Item>, int)>,
    favoriteAlbums: Fetch<(seq<Item>, int)>,
    genres: Fetch<(seq<Item>, int)>)

  /** The screen each category opens. */
  function ScreenOf(m: MN.MediaSelect): W.Screen {
    match m
    case LatestMusic => W.LatestAlbumsView
    case Recent => W.SongsView
    case Songs => W.SongsView
    case Artists => W.ArtistsView
    case AlbumArtists => W.ArtistsView
    case FavoriteArtists => W.ArtistsView
    case Albums => W.AlbumsView
    case FavoriteAlbums => W.FavoriteAlbumsView
    case Playlists => W.PlaylistsView
    case Genres => W.GenresView
  }

  /** Whether the collaborator answered the category's request. */
  predicate Answered(m: MN.MediaSelect, cat: Catalogue) {
    match m
    case LatestMusic => cat.latestAlbums.Fetched?
    case Recent => cat.recentlyPlayed.Fetched?
    case Songs => cat.songs.Fetched?
    case Artists => cat.artists.Fetched?
    case AlbumArtists => cat.albumArtists.Fetched?
    case FavoriteArtists => cat.favoriteArtists.Fetched?
    case Albums => cat.albums.Fetched?
    case FavoriteAlbums => cat.favoriteAlbums.Fetched?
    case Playlists => cat.playlists.Fetched?
    case Genres => cat.genres.Fetched?
  }

  /** The handler each category runs: an answered request opens the
      category's screen, chaining its back-link; an unanswered one leaves the
      window as it was, except for the two song categories, which open the
      songs screen regardless. */
  function Dispatch(app: App, cfg: Config, m: MN.MediaSelect, cat: Catalogue): (r: App)
    ensures Answered(m, cat) || m in {MN.Songs, MN.Recent} ==>
              r.win == W.SetViewWidget(app.win, ScreenOf(m), true)
    ensures !Answered(m, cat) && m !in {MN.Songs, MN.Recent} ==> r.win == app.win
    ensures Inv(app) ==> Inv(r)
  {
    match m
    case LatestMusic =>
      assert Answered(m, cat) == cat.latestAlbums.Fetched?;
      ShowLatestMusic(app, cat.latestAlbums)
    case FavoriteArtists =>
      assert Answered(m, cat) == cat.favoriteArtists.Fetched?;
      ShowFavoriteArtists(app, cat.favoriteArtists)
    case Playlists =>
      assert Answered(m, cat) == cat.playlists.Fetched?;
      ShowPlaylists(app, cat.playlists)
    case Songs => ShowSongs(app, cfg, false, cat.songs)
    case Recent => ShowSongs(app, cfg, true, cat.recentlyPlayed)
    case Artists =>
      assert Answered(m, cat) == cat.artists.Fetched?;
      ShowArtists(app, cfg, false, cat.artists)
    case AlbumArtists =>
      assert Answered(m, cat) == cat.albumArtists.Fetched?;
      ShowArtists(app, cfg, true, cat.albumArtists)
    case Albums =>
      assert Answered(m, cat) == cat.albums.Fetched?;
      ShowAllAlbums(app, cfg, cat.albums)
    case FavoriteAlbums =>
      assert Answered(m, cat) == cat.favoriteAlbums.Fetched?;
      ShowFavoriteAlbums(app, cfg, cat.favoriteAlbums)
    case Genres =>
      assert Answered(m, cat) == cat.genres.Fetched?;
      ShowGenrePage(app, cfg.defaultPaging, cat.genres)
  }

  /** The media-navigation select callback: the row number is converted to a
      category and a number outside the ten categories is ignored. */
  function SelectMedia(app: App, cfg: Config, index: int, cat: Catalogue): (r: App)
    ensures !(0 <= index < 10) ==> r == app
    ensures 0 <= index < 10 ==>
              var m := MN.FromOrdinal(index).value;
              MN.Ordinal(m) == index && r == Dispatch(app, cfg, m, cat)
    ensures Inv(app) ==> Inv(r)
  {
    match MN.FromOrdinal(index)
    case None => app
    case Some(m) => Dispatch(app, cfg, m, cat)
  }

  /** Enter on a row of the navigation panel whose request is answered
      opens that row's screen. */
  lemma EnterOpensCategory(app: App, cfg: Config, cat: Catalogue, m: MN.MediaSelect)
    requires app.nav.hasSelectFunc && app.nav.selectedRow == MN.Ordinal(m) && Answered(m, cat)
    ensures var o := MN.Input(app.nav, KeyEnter);
            o.Select? && SelectMedia(app, cfg, o.index, cat).win == W.SetViewWidget(app.win, ScreenOf(m), true)
  {
    MN.OrdinalRoundTrip(m);
  }

  // ---------------------------------------------------------------------------
  // Drilling into items
  // ---------------------------------------------------------------------------

  /** An artist: its albums in artist mode, paging off, the similar menu on,
      the artist on the banner with the number of albums fetched. */
  function SelectArtist(app: App, artist: Item, resp: Fetch<seq<Item>>): (r: App)
    ensures resp.FetchError? ==> r == app
    ensures resp.Fetched? ==>
              && Albums(r.albumList) == resp.value
              && r.albumList.artistMode && !r.albumList.pagingEnabled && r.albumList.similarEnabled
              && r.albumList.artist == Some(AA.ArtistHeader(artist, |resp.value|))
              && (forall i :: 0 <= i < |resp.value| ==> r.albumList.covers[i].number == i + 1)
              && r.win == W.SetViewWidget(app.win, W.AlbumsView, true)
              && r == app.(albumList := r.albumList, win := r.win)
    ensures Inv(app) ==> Inv(r)
  {
    match resp
    case FetchError => app
    case Fetched(albums) =>
      var paged := AA.EnablePaging(AA.EnableArtistMode(AA.Clear(app.albumList), true), false);
      var withArtist := AA.SetArtist(AA.EnableSimilar(paged, true), Some(AA.ArtistHeader(artist, |albums|)));
      Show(app.(albumList := AA.SetAlbums(withArtist, albums)), W.AlbumsView, true)
  }

  /** The album screen filled with an album and its songs; the banner's
      artist is replaced only when the artist fetch succeeds. */
  function FillAlbum(app: App, album: Item, songs: seq<Item>, artist: Fetch<Item>): (r: App)
    ensures r.album == Some(album) && Listed(r, W.AlbumView) == songs
    ensures artist.Fetched? ==> r.albumArtist == Some(artist.value)
    ensures artist.FetchError? ==> r.albumArtist == app.albumArtist
    ensures forall s :: s != W.AlbumView ==> Listed(r, s) == Listed(app, s)
    ensures r == app.(album := r.album, shown := r.shown, albumArtist := r.albumArtist)
  {
    app.(album := Some(album),
         shown := app.shown[W.AlbumView := songs],
         albumArtist := if artist.Fetched? then Some(artist.value) else app.albumArtist)
  }

  /** An album, as written: the album screen's back-link is first set to the
      current screen and then the screen is switched to. When the album screen
      is already current the switch does nothing and the screen is left
      linked back to itself. */
  function SelectAlbum(app: App, album: Item, songs: Fetch<seq<Item>>, artist: Fetch<Item>): (r: App)
    ensures songs.FetchError? ==> r == app
    ensures songs.Fetched? ==>
              && r.album == Some(album) && Listed(r, W.AlbumView) == songs.value
              && r.albumArtist == (if artist.Fetched? then Some(artist.value) else app.albumArtist)
              && r.win.mediaView == Some(W.AlbumView)
              && W.BackOf(r.win, W.AlbumView) == app.win.mediaView
              && (forall s :: s != W.AlbumView ==> W.BackOf(r.win, s) == W.BackOf(app.win, s))
              && r == app.(album := r.album, shown := r.shown, albumArtist := r.albumArtist, win := r.win)
    ensures Inv(app) ==> Inv(r)
  {
    match songs
    case FetchError => app
    case Fetched(s) =>
      var filled := FillAlbum(app, album, s, artist);
      Show(filled.(win := W.SetLast(filled.win, W.AlbumView, filled.win.mediaView)), W.AlbumView, true)
  }

  /** An album with the redundant link dropped: switching sets the back-link
      only when the album screen was not current already, so no screen ever
      links back to itself. */
  function SelectAlbumCorrected(app: App, album: Item, songs: Fetch<seq<Item>>, artist: Fetch<Item>): (r: App)
    ensures songs.FetchError? ==> r == app
    ensures songs.Fetched? ==>
              && r.album == Some(album) && Listed(r, W.AlbumView) == songs.value
              && r.win.mediaView == Some(W.AlbumView)
              && (app.win.mediaView != Some(W.AlbumView) ==> W.BackOf(r.win, W.AlbumView) == app.win.mediaView)
              && (app.win.mediaView == Some(W.AlbumView) ==> r.win == app.win)
    ensures W.NoSelfLink(app.win) ==> W.NoSelfLink(r.win)
    ensures Inv(app) ==> Inv(r)
  {
    match songs
    case FetchError => app
    case Fetched(s) => Show(FillAlbum(app, album, s, artist), W.AlbumView, true)
  }

  /** Selecting an album while the album screen is current leaves it
      linked back to itself, so its back button goes nowhere. */
  lemma SelectAlbumSelfLink(app: App, album: Item, songs: seq<Item>, artist: Fetch<Item>)
    requires app.win.mediaView == Some(W.AlbumView)
    ensures var r := SelectAlbum(app, album, Fetched(songs), artist);
            W.BackOf(r.win, W.AlbumView) == Some(W.AlbumView) && !W.NoSelfLink(r.win)
            && PressBack(r).win == r.win
  {
  }

  /** Coming from any other screen the two versions agree. */
  lemma SelectAlbumVersionsAgree(app: App, album: Item, songs: Fetch<seq<Item>>, artist: Fetch<Item>)
    requires app.win.mediaView != Some(W.AlbumView)
    ensures SelectAlbumCorrected(app, album, songs, artist) == SelectAlbum(app, album, songs, artist)
  {
    if songs.Fetched? {
      var filled := FillAlbum(app, album, songs.value, artist);
      var linked := filled.(win := W.SetLast(filled.win, W.AlbumView, filled.win.mediaView));
      var viaLink := W.SetViewWidget(linked.win, W.AlbumView, true);
      var direct := W.SetViewWidget(filled.win, W.AlbumView, true);
      W.SameLinksSameMap(viaLink, direct);
    }
  }

  /** A playlist whose songs were fetched is shown in the playlist screen. */
  function SelectPlaylist(app: App, playlist: Item, resp: Fetch<seq<Item>>): (r: App)
    ensures resp.FetchError? ==> r == app
    ensures resp.Fetched? ==>
              && PW.Songs(r.playlist) == resp.value && r.playlist.playlist == Some(playlist)
              && r.win == W.SetViewWidget(app.win, W.PlaylistView, true)
              && r == app.(playlist := r.playlist, win := r.win)
    ensures Inv(app) ==> Inv(r)
  {
    match resp
    case FetchError => app
    case Fetched(songs) =>
      var v := PW.SetPlaylist(app.playlist, playlist, songs);
      assert PW.Songs(v) == songs;
      Show(app.(playlist := v), W.PlaylistView, true)
  }

  /** A page of songs (both the all-songs and the recently-played pager): the
      songs screen is switched to even when the fetch fails, and then empty. */
  function ShowSongPage(app: App, page: Paging, resp: Fetch<seq<Item>>): (r: App)
    ensures Listed(r, W.SongsView) == (if resp.Fetched? then resp.value else [])
    ensures r.pages == app.pages[W.SongsView := page]
    ensures r.win == W.SetViewWidget(app.win, W.SongsView, true)
    ensures r == app.(shown := r.shown, pages := r.pages, win := r.win)
    ensures Inv(app) ==> Inv(r)
  {
    var songs := if resp.Fetched? then resp.value else [];
    Show(app.(shown := app.shown[W.SongsView := songs], pages := app.pages[W.SongsView := page]),
         W.SongsView, true)
  }

  /** A page of artists: replaces the artists without touching back-links. */
  function ShowArtistPage(app: App, resp: Fetch<seq<Item>>): (r: App)
    ensures resp.FetchError? ==> r == app
    ensures resp.Fetched? ==>
              && Listed(r, W.ArtistsView) == resp.value
              && r.win == W.GoBack(app.win, W.ArtistsView) && r.win.back == app.win.back
              && r == app.(shown := r.shown, win := r.win)
    ensures Inv(app) ==> Inv(r)
  {
    match resp
    case FetchError => app
    case Fetched(artists) => Show(app.(shown := app.shown[W.ArtistsView := artists]), W.ArtistsView, false)
  }

  /** A page of albums: the main album list is refilled in place, paging on;
      the screen is not switched. */
  function ShowAlbumPage(app: App, page: Paging, resp: Fetch<(seq<Item>, int)>): (r: App)
    ensures resp.FetchError? ==> r == app
    ensures resp.Fetched? ==>
              && Albums(r.albumList) == resp.value.0
              && r.albumList.pagingEnabled && r.albumList.page == page.SetTotalItems(resp.value.1)
              && (forall i :: 0 <= i < |resp.value.0| ==>
                    r.albumList.covers[i].number == page.Offset() + i + 1)
              && r.nav == MN.SetCount(app.nav, MN.Albums, resp.value.1)
              && r == app.(albumList := r.albumList, nav := r.nav)
    ensures Inv(app) ==> Inv(r)
  {
    match resp
    case FetchError => app
    case Fetched((albums, total)) =>
      var p := page.SetTotalItems(total);
      var list := AA.EnablePaging(AA.Clear(AA.SetPage(app.albumList, p)), true);
      assert ListOk(app.albumList) ==> ListOk(list) by {
        if ListOk(app.albumList) { AA.TogglesKeepButtonsCurrent(AA.Clear(AA.SetPage(app.albumList, p)), true); }
      }
      Count(app.(albumList := AA.SetAlbums(list, albums)), MN.Albums, total)
  }

  /** Flipping to another page of albums and the cover numbers follow the
      page: the first cover of page `n` is numbered `n * size + 1`. This
      rests on the page offset being the current page times the page size,
      which is how `Paging` is modelled here. */
  lemma AlbumPageNumbering(app: App, albums: seq<Item>, total: int, n: int, size: int)
    requires |albums| > 0
    ensures var r := ShowAlbumPage(app, Paging(n, size, 0), Fetched((albums, total)));
            r.albumList.covers[0].number == n * size + 1
  {
  }

  /** Similar artists: shown when there are some, a message dialog otherwise. */
  function ShowSimilarArtists(app: App, resp: Fetch<seq<Item>>): (r: Outcome)
    ensures resp.FetchError? ==> r == Continue(app)
    ensures resp.Fetched? && |resp.value| > 0 ==>
              && r.Continue?
              && Listed(r.app, W.ArtistsView) == resp.value
              && r.app.win == W.SetViewWidget(app.win, W.ArtistsView, true)
              && r.app == app.(shown := r.app.shown, win := r.app.win)
    ensures resp.Fetched? && |resp.value| == 0 ==> r == ShowMessage(app, "No similar artists", 3, -1, false)
    ensures r.Continue? ==> Inv(app) ==> Inv(r.app)
  {
    match resp
    case FetchError => Continue(app)
    case Fetched(artists) =>
      if |artists| > 0 then Continue(Show(app.(shown := app.shown[W.ArtistsView := artists]), W.ArtistsView, true))
      else ShowMessage(app, "No similar artists", 3, -1, false)
  }

  /** Similar albums: the similar-albums list, without paging or the similar
      menu, when there are some; a message dialog otherwise. */
  function ShowSimilarAlbums(app: App, resp: Fetch<seq<Item>>): (r: Outcome)
    ensures resp.FetchError? ==> r == Continue(app)
    ensures resp.Fetched? && |resp.value| > 0 ==>
              && r.Continue?
              && Albums(r.app.similarAlbums) == resp.value
              && !r.app.similarAlbums.pagingEnabled && !r.app.similarAlbums.similarEnabled
              && r.app.win == W.SetViewWidget(app.win, W.SimilarAlbumsView, true)
              && r.app == app.(similarAlbums := r.app.similarAlbums, win := r.app.win)
    ensures resp.Fetched? && |resp.value| == 0 ==> r == ShowMessage(app, "No similar albums", 3, -1, false)
    ensures r.Continue? ==> Inv(app) ==> Inv(r.app)
  {
    match resp
    case FetchError => Continue(app)
    case Fetched(albums) =>
      if |albums| > 0 then
        var base := AA.EnableSimilar(AA.Clear(app.similarAlbums), false);
        var list := AA.SetAlbums(AA.EnablePaging(base, false), albums);
        assert ListOk(app.similarAlbums) ==> ListOk(list) by {
          if ListOk(app.similarAlbums) { AA.TogglesKeepButtonsCurrent(base, false); }
        }
        Continue(Show(app.(similarAlbums := list), W.SimilarAlbumsView, true))
      else ShowMessage(app, "No similar albums", 3, -1, false)
  }

  /** With no similar items, no modal open and a focused primitive, the
      message dialog opens at 3 rows by the default 50 columns and takes the
      focus. */
  lemma NoSimilarOpensMessage(app: App)
    requires !app.win.hasModal && app.win.focus != W.NoFocus
    ensures var r := ShowSimilarAlbums(app, Fetched([]));
            && r.Continue?
            && r.app.win.modal == Some(W.MessageDialog) && r.app.win.placement == Some(W.Fixed(3, 50))
            && r.app.win.focus == W.OnModal(W.MessageDialog) && r.app.message == "No similar albums"
  {
  }

  /** A genre: its albums in the main album list, every toggle off. */
  function SelectGenre(app: App, resp: Fetch<seq<Item>>): (r: App)
    ensures resp.FetchError? ==> r == app
    ensures resp.Fetched? ==>
              && Albums(r.albumList) == resp.value
              && !r.albumList.pagingEnabled && !r.albumList.similarEnabled && !r.albumList.artistMode
              && r.win == W.SetViewWidget(app.win, W.AlbumsView, true)
              && r == app.(albumList := r.albumList, win := r.win)
    ensures Inv(app) ==> Inv(r)
  {
    match resp
    case FetchError => app
    case Fetched(albums) =>
      var base := AA.EnablePaging(AA.Clear(app.albumList), false);
      var list := AA.SetAlbums(AA.EnableArtistMode(AA.EnableSimilar(base, false), false), albums);
      assert ListOk(app.albumList) ==> ListOk(list) by {
        if ListOk(app.albumList) { AA.TogglesKeepButtonsCurrent(AA.Clear(app.albumList), false); }
      }
      Show(app.(albumList := list), W.AlbumsView, true)
  }

  // ---------------------------------------------------------------------------
  // Search
  // ---------------------------------------------------------------------------

  /** A search answer contributes when it succeeded with at least one item. */
  predicate Hit(answer: (ItemType, Fetch<seq<Item>>)) {
    answer.1.Fetched? && |answer.1.value| > 0
  }

  /** The result groups of a search, in the order of the configured types. */
  function Hits(answers: seq<(ItemType, Fetch<seq<Item>>)>): seq<(ItemType, seq<Item>)> {
    if |answers| == 0 then []
    else
      var last := answers[|answers| - 1];
      Hits(answers[..|answers| - 1]) + (if Hit(last) then [(last.0, last.1.value)] else [])
  }

  /** Exactly the successful non-empty answers become groups. */
  lemma {:induction false} HitsExactly(answers: seq<(ItemType, Fetch<seq<Item>>)>)
    ensures |Hits(answers)| <= |answers|
    ensures forall g :: g in Hits(answers) <==> exists i :: 0 <= i < |answers| && Hit(answers[i]) && g == (answers[i].0, answers[i].1.value)
  {
    if |answers| > 0 {
      var init := answers[..|answers| - 1];
      HitsExactly(init);
      forall g ensures g in Hits(answers) <==> exists i :: 0 <= i < |answers| && Hit(answers[i]) && g == (answers[i].0, answers[i].1.value)
      {
        if g in Hits(init) {
          var i :| 0 <= i < |init| && Hit(init[i]) && g == (init[i].0, init[i].1.value);
          assert answers[i] == init[i];
        }
        if exists i :: 0 <= i < |answers| && Hit(answers[i]) && g == (answers[i].0, answers[i].1.value) {
          var i :| 0 <= i < |answers| && Hit(answers[i]) && g == (answers[i].0, answers[i].1.value);
          if i < |init| {
            assert answers[i] == init[i];
          }
        }
      }
    }
  }

  /** The search callback: one answer per configured item type, in order;
      failed and empty answers are skipped, the others become result groups. */
  method SearchCb(app: App, answers: seq<(ItemType, Fetch<seq<Item>>)>) returns (r: App)
    ensures r.searchResults == Hits(answers)
    ensures forall k :: 0 <= k < |r.searchResults| ==> |r.searchResults[k].1| > 0
    ensures r == app.(searchResults := r.searchResults)
    ensures Inv(app) ==> Inv(r)
  {
    var groups: seq<(ItemType, seq<Item>)> := [];
    var i := 0;
    while i < |answers|
      invariant 0 <= i <= |answers|
      invariant groups == Hits(answers[..i])
      invariant forall k :: 0 <= k < |groups| ==> |groups[k].1| > 0
    {
      assert answers[..i + 1][..i] == answers[..i];
      var (t, resp) := answers[i];
      if resp.Fetched? && |resp.value| > 0 {
        groups := groups + [(t, resp.value)];
      }
      i := i + 1;
    }
    assert answers[..|answers|] == answers;
    r := app.(searchResults := groups);
  }

  /** A failed type is skipped while the others still produce their group. */
  lemma SearchSkipsFailures(a: ItemType, b: ItemType, items: seq<Item>)
    requires |items| == 3
    ensures Hits([(a, FetchError), (b, Fetched(items))]) == [(b, items)]
  {
    var answers: seq<(ItemType, Fetch<seq<Item>>)> := [(a, FetchError), (b, Fetched(items))];
    assert answers[..1] == [(a, FetchError)];
    assert answers[..1][..0] == [];
    assert Hits(answers[..1]) == [];
    assert Hits(answers) == Hits(answers[..1]) + [(b, items)];
  }

  /** Whether album results hold an item that is not an album: the comma-ok
      assertion turns it into a nil album, whose fields the album list reads. */
  predicate HasNonAlbum(results: seq<Item>) {
    exists i :: 0 <= i < |results| && Cast(results, AlbumType)[i] == Nil
  }

  /** A result group opened from the search screen: the matching screen is
      filled (items of another kind become nil, and genres are all nil) and
      switched to with the search screen as the focus it replaced; songs
      get the default page. Item types with no screen do nothing. A nil
      album among album results panics when the album list reads it. */
  function ShowSearchResults(app: App, defaultPaging: Paging, kind: ItemType, results: seq<Item>): (r: Outcome)
    ensures r.Panic? <==> kind == AlbumType && HasNonAlbum(results)
    ensures kind == OtherType ==> r == Continue(app)
    ensures kind == AlbumType && r.Continue? ==>
              && Albums(r.app.albumList) == results
              && !r.app.albumList.pagingEnabled && !r.app.albumList.similarEnabled
              && (forall i :: 0 <= i < |results| ==> r.app.albumList.covers[i].number == i + 1)
    ensures kind == ArtistType ==> Listed(r.app, W.ArtistsView) == Cast(results, ArtistType)
    ensures kind == SongType ==>
              && Listed(r.app, W.SongsView) == Cast(results, SongType)
              && W.SongsView in r.app.pages && r.app.pages[W.SongsView] == defaultPaging
    ensures kind == PlaylistType ==> Listed(r.app, W.PlaylistsView) == Cast(results, PlaylistType)
    ensures kind == GenreType ==>
              |Listed(r.app, W.GenresView)| == |results| && forall g :: g in Listed(r.app, W.GenresView) ==> g == Nil
    ensures kind != OtherType && r.Continue? ==>
              r.app.win == W.SetViewWidget(app.win.(focus := W.OnScreen(W.SearchView)), ScreenFor(kind), true)
    ensures r.Continue? ==> Inv(app) ==> Inv(r.app)
  {
    if kind == AlbumType && HasNonAlbum(results) then Panic
    else
      var a := FillResults(app, defaultPaging, kind, results);
      if kind == OtherType then Continue(a)
      else Continue(a.(win := W.SetViewWidget(a.win.(focus := W.OnScreen(W.SearchView)), ScreenFor(kind), true)))
  }

  /** The list part of opening a result group, before the screen switch. */
  function FillResults(app: App, defaultPaging: Paging, kind: ItemType, results: seq<Item>): (r: App)
    requires !(kind == AlbumType && HasNonAlbum(results))
    ensures r.win == app.win
    ensures kind == OtherType ==> r == app
    ensures kind == AlbumType ==>
              && Albums(r.albumList) == results
              && !r.albumList.pagingEnabled && !r.albumList.similarEnabled
              && (forall i :: 0 <= i < |results| ==> r.albumList.covers[i].number == i + 1)
    ensures kind == ArtistType ==> Listed(r, W.ArtistsView) == Cast(results, ArtistType)
    ensures kind == SongType ==>
              && Listed(r, W.SongsView) == Cast(results, SongType)
              && W.SongsView in r.pages && r.pages[W.SongsView] == defaultPaging
    ensures kind == PlaylistType ==> Listed(r, W.PlaylistsView) == Cast(results, PlaylistType)
    ensures kind == GenreType ==>
              |Listed(r, W.GenresView)| == |results| && forall g :: g in Listed(r, W.GenresView) ==> g == Nil
    ensures Inv(app) ==> Inv(r)
  {
    match kind
    case AlbumType => app.(albumList := AlbumResults(app.albumList, results))
    case ArtistType => app.(shown := app.shown[W.ArtistsView := Cast(results, ArtistType)])
    case SongType =>
      app.(shown := app.shown[W.SongsView := Cast(results, SongType)],
           pages := app.pages[W.SongsView := defaultPaging])
    case PlaylistType => app.(shown := app.shown[W.PlaylistsView := Cast(results, PlaylistType)])
    case GenreType => app.(shown := app.shown[W.GenresView := seq(|results|, _ => Nil)])
    case OtherType => app
  }

  /** The main album list refilled with album search results: cleared,
      without paging or the similar button, covers numbered from 1. */
  function AlbumResults(a: AA.AlbumList, results: seq<Item>): (r: AA.AlbumList)
    requires !HasNonAlbum(results)
    ensures Albums(r) == results
    ensures !r.pagingEnabled && !r.similarEnabled
    ensures forall i :: 0 <= i < |results| ==> r.covers[i].number == i + 1
    ensures ListOk(a) ==> ListOk(r)
  {
    assert Cast(results, AlbumType) == results by {
      forall i | 0 <= i < |results| ensures Cast(results, AlbumType)[i] == results[i] {
        assert Cast(results, AlbumType)[i] != Nil;
      }
    }
    var base := AA.EnablePaging(AA.Clear(a), false);
    var list := AA.EnableSimilar(AA.SetAlbums(base, results), false);
    assert ListOk(a) ==> ListOk(list) by {
      if ListOk(a) { AA.TogglesKeepButtonsCurrent(AA.Clear(a), false); }
    }
    list
  }

  /** The screen a search result group opens. */
  function ScreenFor(kind: ItemType): W.Screen
    requires kind != OtherType
  {
    match kind
    case AlbumType => W.AlbumsView
    case ArtistType => W.ArtistsView
    case SongType => W.SongsView
    case PlaylistType => W.PlaylistsView
    case GenreType => W.GenresView
  }

  // ---------------------------------------------------------------------------
  // Scenarios
  // ---------------------------------------------------------------------------

  /** The back button of the current screen: on a screen given the back
      callback it follows the screen's back-link, and only the window
      changes; elsewhere it does nothing. */
  function PressBack(app: App): (r: App)
    ensures r == app.(win := r.win)
    ensures r.win.back == app.win.back && W.SameOverlay(app.win, r.win)
    ensures var v := app.win.mediaView;
            (v.Some? && W.HasBackCallback(v.value) && W.BackOf(app.win, v.value).Some?
             && W.BackOf(app.win, v.value) != v) ==>
              && r.win.mediaView == W.BackOf(app.win, v.value)
              && r.win.focus == W.OnScreen(W.BackOf(app.win, v.value).value)
    ensures var v := app.win.mediaView;
            (v.None? || !W.HasBackCallback(v.value) || W.BackOf(app.win, v.value).None?
             || W.BackOf(app.win, v.value) == v) ==> r == app
  {
    app.(win := W.Back(app.win))
  }

  /** From an empty central slot: artists, then an artist's albums, then an
      album. Back returns to the albums, back again to the artists, and a
      third back does nothing because the artists screen has no back-link. */
  lemma ArtistAlbumBackScenario(app: App, cfg: Config, artists: seq<Item>, total: int,
                                artist: Item, albums: seq<Item>, album: Item, songs: seq<Item>,
                                albumArtist: Fetch<Item>)
    requires app.win.mediaView == None
    ensures var a1 := ShowArtists(app, cfg, false, Fetched((artists, total)));
            var a2 := SelectArtist(a1, artist, Fetched(albums));
            var a3 := SelectAlbum(a2, album, Fetched(songs), albumArtist);
            var b1 := PressBack(a3);
            var b2 := PressBack(b1);
            && a3.win.mediaView == Some(W.AlbumView)
            && b1.win.mediaView == Some(W.AlbumsView)
            && b2.win.mediaView == Some(W.ArtistsView)
            && PressBack(b2) == b2
  {
    var a1 := ShowArtists(app, cfg, false, Fetched((artists, total)));
    ArtistsStep(app, cfg, artists, total);
    var a2 := SelectArtist(a1, artist, Fetched(albums));
    ArtistStep(a1, artist, albums);
    var a3 := SelectAlbum(a2, album, Fetched(songs), albumArtist);
    AlbumStep(a2, album, songs, albumArtist);
    BackTwice(a3);
  }

  /** Opening the artists screen from nothing leaves it without a back link. */
  lemma ArtistsStep(app: App, cfg: Config, artists: seq<Item>, total: int)
    requires app.win.mediaView == None
    ensures var a1 := ShowArtists(app, cfg, false, Fetched((artists, total)));
            a1.win.mediaView == Some(W.ArtistsView) && W.BackOf(a1.win, W.ArtistsView) == None
  {
  }

  /** Choosing an artist links the albums screen back to the artists screen. */
  lemma ArtistStep(a1: App, artist: Item, albums: seq<Item>)
    requires a1.win.mediaView == Some(W.ArtistsView) && W.BackOf(a1.win, W.ArtistsView) == None
    ensures var a2 := SelectArtist(a1, artist, Fetched(albums));
            && a2.win.mediaView == Some(W.AlbumsView)
            && W.BackOf(a2.win, W.AlbumsView) == Some(W.ArtistsView)
            && W.BackOf(a2.win, W.ArtistsView) == None
  {
  }

  /** Choosing an album links the album screen back to the albums screen and
      keeps the older links. */
  lemma AlbumStep(a2: App, album: Item, songs: seq<Item>, albumArtist: Fetch<Item>)
    requires a2.win.mediaView == Some(W.AlbumsView)
    requires W.BackOf(a2.win, W.AlbumsView) == Some(W.ArtistsView)
    requires W.BackOf(a2.win, W.ArtistsView) == None
    ensures var a3 := SelectAlbum(a2, album, Fetched(songs), albumArtist);
            && a3.win.mediaView == Some(W.AlbumView)
            && W.BackOf(a3.win, W.AlbumView) == Some(W.AlbumsView)
            && W.BackOf(a3.win, W.AlbumsView) == Some(W.ArtistsView)
            && W.BackOf(a3.win, W.ArtistsView) == None
  {
  }

  /** Back from the album screen walks to the albums and then the artists
      screen, where it stops. */
  lemma BackTwice(a3: App)
    requires a3.win.mediaView == Some(W.AlbumView)
    requires W.BackOf(a3.win, W.AlbumView) == Some(W.AlbumsView)
    requires W.BackOf(a3.win, W.AlbumsView) == Some(W.ArtistsView)
    requires W.BackOf(a3.win, W.ArtistsView) == None
    ensures var b1 := PressBack(a3);
            var b2 := PressBack(b1);
            && b1.win.mediaView == Some(W.AlbumsView)
            && b2.win.mediaView == Some(W.ArtistsView)
            && PressBack(b2) == b2
  {
    var b1 := PressBack(a3);
    assert b1.win.back == a3.win.back;
    var b2 := PressBack(b1);
    assert b2.win.back == a3.win.back;
    assert W.ArtistsView !in b2.win.back;
  }
}

=== FILE: help.dfy ===
/** The help modal (ui/widgets/modal/help.go): three pages browsed with the
    Left and Right keys, closed with Escape, plus the byte-size formatter used
    on its statistics page. Page bodies are literal text and are represented
    by which page they are. */
module HelpModal {
  import opened Common
  import opened Models

  /** Number of help pages, set by the constructor. */
  const TotalPages: int := 3

  datatype PageKind = About | Usage | Info

  /** What the text view shows: the "< n / total > title" header line and the page body. */
  datatype Content = Content(header: string, body: PageKind)

  datatype Help = Help(page: int, totalPages: int, content: Option<Content>)

  /** What a key press does beyond changing the page. */
  datatype Reaction =
    | CloseRequested  // the done callback was invoked
    | Handled         // the help modal consumed the key
    | ToTextView      // the key went on to the text view (scrolling)

  /** The page shown at each index; `None` outside the three pages. */
  function PageAt(page: int): (k: Option<PageKind>)
    ensures k.Some? <==> 0 <= page < TotalPages
  {
    if page == 0 then Some(About)
    else if page == 1 then Some(Usage)
    else if page == 2 then Some(Info)
    else None
  }

  function Title(k: PageKind): string {
    match k
    case About => "About"
    case Usage => "Usage"
    case Info => "Info"
  }

  /** The header line: "< page+1 / total > " and the highlighted title. */
  function Header(page: int, totalPages: int, k: PageKind): (h: string)
    // the one-based page number follows the opening "< " and ends at a space
    ensures page >= 0 ==>
              var n := NatToString(page + 1);
              && |h| > |n| + 2 && h[..2] == "< " && h[2..|n| + 2] == n && h[|n| + 2] == ' '
  {
    var n := IntToString(page + 1);
    var rest := " / " + IntToString(totalPages) + " > " + "[yellow::b]" + Title(k) + "[-::-]" + " \n\n";
    SplitAfterOpening(n, rest);
    "< " + n + rest
  }

  /** The pieces of "< " + n + rest can be read back by position. */
  lemma SplitAfterOpening(n: string, rest: string)
    requires |rest| > 0
    ensures var h := "< " + n + rest;
            && |h| > |n| + 2 && h[..2] == "< " && h[2..|n| + 2] == n && h[|n| + 2] == rest[0]
  {
    var h := "< " + n + rest;
    assert h[..2] == "< ";
    assert h[2..|n| + 2] == n;
  }

  /** The page number in a header reads back as the one-based page. */
  lemma HeaderPageReadsBack(page: nat, totalPages: int, k: PageKind)
    ensures var h := Header(page, totalPages, k);
            var n := |NatToString(page + 1)|;
            |h| > n + 2 && h[2..n + 2] == NatToString(page + 1) && ParseNat(h[2..n + 2]) == page + 1
  {
    NatToStringRoundTrip(page + 1);
  }

  /** What the view shows once page `page` has been laid out. */
  function PageContent(page: int, totalPages: int): Option<Content> {
    match PageAt(page)
    case Some(k) => Some(Content(Header(page, totalPages, k), k))
    case None => None
  }

  /** Lay out the current page; an out-of-range page leaves the view as it was. */
  function SetContent(h: Help): (r: Help)
    ensures r.page == h.page && r.totalPages == h.totalPages
    ensures 0 <= h.page < TotalPages ==> r.content == PageContent(h.page, h.totalPages)
    ensures !(0 <= h.page < TotalPages) ==> r == h
  {
    match PageAt(h.page)
    case Some(k) => h.(content := Some(Content(Header(h.page, h.totalPages, k), k)))
    case None => h
  }

  /** The constructor's state: first page, three pages, first page laid out. */
  function NewHelp(): (h: Help)
    ensures Valid(h) && h.page == 0
  {
    SetContent(Help(0, TotalPages, None))
  }

  /** The state every reachable help modal is in: a page within range, and
      the view showing exactly that page. */
  predicate Valid(h: Help) {
    && h.totalPages == TotalPages
    && 0 <= h.page < h.totalPages
    && h.content == PageContent(h.page, h.totalPages)
  }

  /** The key handler. */
  function Input(h: Help, key: Key): (r: (Help, Reaction))
    ensures key == KeyEscape ==> r == (h, CloseRequested)
    ensures key == KeyLeft && h.page > 0 ==> r.0.page == h.page - 1 && r.1 == Handled
    ensures key == KeyLeft && h.page <= 0 ==> r == (h, Handled)
    ensures key == KeyRight && h.page < h.totalPages - 1 ==> r.0.page == h.page + 1 && r.1 == Handled
    ensures key == KeyRight && h.page >= h.totalPages - 1 ==> r == (h, Handled)
    ensures key !in {KeyEscape, KeyLeft, KeyRight} ==> r == (h, ToTextView)
    ensures Valid(h) ==> Valid(r.0)
  {
    if key == KeyEscape then (h, CloseRequested)
    else if key == KeyLeft then
      (if h.page > 0 then SetContent(h.(page := h.page - 1)) else h, Handled)
    else if key == KeyRight then
      (if h.page < h.totalPages - 1 then SetContent(h.(page := h.page + 1)) else h, Handled)
    else (h, ToTextView)
  }

  /** The state after a sequence of key presses. */
  function Run(h: Help, keys: seq<Key>): Help
    decreases keys
  {
    if |keys| == 0 then h else Run(Input(h, keys[0]).0, keys[1..])
  }

  /** Under any sequence of keys the page stays in [0, 3) and the view shows it. */
  lemma {:induction false} RunStaysValid(h: Help, keys: seq<Key>)
    requires Valid(h)
    ensures Valid(Run(h, keys))
    ensures 0 <= Run(h, keys).page < TotalPages
    decreases keys
  {
    if |keys| > 0 {
      RunStaysValid(Input(h, keys[0]).0, keys[1..]);
    }
  }

  /** Right then Left returns to the same state when there is a next page. */
  lemma RightThenLeft(h: Help)
    requires Valid(h) && h.page < h.totalPages - 1
    ensures Input(Input(h, KeyRight).0, KeyLeft).0 == h
  {
  }

  /** Left then Right returns to the same state when there is a previous page. */
  lemma LeftThenRight(h: Help)
    requires Valid(h) && h.page > 0
    ensures Input(Input(h, KeyLeft).0, KeyRight).0 == h
  {
  }

  /** Distinct pages show distinct headers. */
  lemma {:induction false} HeadersDistinct(p: nat, q: nat)
    requires p < TotalPages && q < TotalPages && p != q
    ensures Header(p, TotalPages, PageAt(p).value) != Header(q, TotalPages, PageAt(q).value)
  {
    HeaderPageReadsBack(p, TotalPages, PageAt(p).value);
    HeaderPageReadsBack(q, TotalPages, PageAt(q).value);
  }

  // ---------------------------------------------------------------------------
  // formatBytes
  // ---------------------------------------------------------------------------

  type Uint64 = b: nat | b < 0x1_0000_0000_0000_0000

  const KiB: nat := 1024
  const MiB: nat := 1024 * 1024
  const GiB: nat := 1024 * 1024 * 1024

  /** Dividing by 1024 twice is dividing by one MiB. */
  lemma DivideTwice(b: nat)
    ensures b / 1024 / 1024 == b / MiB
  {
    var q := b / 1024;
    assert b == 1024 * q + b % 1024;
    assert q == 1024 * (q / 1024) + q % 1024;
    assert b == 1048576 * (q / 1024) + (1024 * (q % 1024) + b % 1024);
  }

  /** Dividing by 1024 three times is dividing by one GiB. */
  lemma DivideThrice(b: nat)
    ensures b / 1024 / 1024 / 1024 == b / GiB
  {
    DivideTwice(b);
    var q := b / MiB;
    assert b == 1048576 * q + b % MiB;
    assert q == 1024 * (q / 1024) + q % 1024;
    assert b == 1073741824 * (q / 1024) + (1048576 * (q % 1024) + b % MiB);
  }

  /** A byte count in the largest binary unit the source reaches, as written:
      the fourth test repeats the third one's bound, so nothing at or above
      one GiB gets a unit and the result is empty. */
  function FormatBytes(bytes: Uint64): (s: string)
    ensures bytes < KiB ==> s == NatToString(bytes) && ParseNat(s) == bytes
    ensures KiB <= bytes < MiB ==> s == NatToString(bytes / KiB) + " KiB"
    ensures MiB <= bytes < GiB ==> s == NatToString(bytes / MiB) + " MiB"
    ensures bytes >= GiB ==> s == ""
  {
    NatToStringRoundTrip(bytes);
    DivideTwice(bytes);
    if bytes < 1024 then NatToString(bytes)
    else if bytes < 1024 * 1024 then NatToString(bytes / 1024) + " KiB"
    else if bytes < 1024 * 1024 * 1024 then NatToString(bytes / 1024 / 1024) + " MiB"
    else if bytes < 1024 * 1024 * 1024 then
      // the GiB branch: its bound repeats the MiB test above, so it is never taken
      assert false; ""
    else ""
  }

  /** The formatter with the GiB branch reachable: every count of one GiB or
      more is written in GiB. */
  function FormatBytesCorrected(bytes: Uint64): (s: string)
    ensures bytes < GiB ==> s == FormatBytes(bytes)
    ensures bytes >= GiB ==> s == NatToString(bytes / GiB) + " GiB"
    ensures s != ""
  {
    DivideThrice(bytes);
    if bytes < GiB then FormatBytes(bytes)
    else NatToString(bytes / 1024 / 1024 / 1024) + " GiB"
  }

  /** The unit the formatter picks for a byte count below one GiB. */
  function UnitOf(bytes: nat): nat {
    if bytes < KiB then 1 else if bytes < MiB then KiB else MiB
  }

  /** Below one GiB the formatter never loses more than one unit: the number
      it prints, times its unit, is at most the count and within one unit of it,
      and the number is below 1024. */
  lemma FormatBytesScaled(bytes: Uint64)
    requires bytes < GiB
    ensures var q := bytes / UnitOf(bytes);
            q * UnitOf(bytes) <= bytes < (q + 1) * UnitOf(bytes) && q < 1024
    ensures FormatBytes(bytes) != ""
  {
    var u := UnitOf(bytes);
    var q := bytes / u;
    assert bytes == q * u + bytes % u;
    if u == MiB {
      assert bytes / 1024 / 1024 == bytes / MiB;
    }
  }

  /** One GiB as written formats to nothing; the corrected formatter gives "1 GiB". */
  lemma OneGiBFormatsEmpty()
    ensures FormatBytes(GiB) == ""
    ensures FormatBytesCorrected(GiB) == "1 GiB"
  {
  }
}

=== FILE: media_navigation.dfy ===
/** The media-navigation panel (ui/widgets/media_navigation.go): a table
    with one row per media category, a count column, and Enter / left-click
    selection that reports the chosen category to the window. The table's
    drawing and its own key handling belong to the toolkit and are left out. */
module MediaNavigation {
  import opened Common
  import opened Models

  /** The categories, in row order. */
  datatype MediaSelect =
    | LatestMusic | Recent | Artists | AlbumArtists | Albums
    | Songs | Playlists | FavoriteArtists | FavoriteAlbums | Genres

  /** The integer value of each category (its row in the table). */
  function Ordinal(m: MediaSelect): (i: nat)
    ensures i < 10
  {
    match m
    case LatestMusic => 0
    case Recent => 1
    case Artists => 2
    case AlbumArtists => 3
    case Albums => 4
    case Songs => 5
    case Playlists => 6
    case FavoriteArtists => 7
    case FavoriteAlbums => 8
    case Genres => 9
  }

  /** The category a row number denotes, if any: Go's `MediaSelect(index)`
      conversion followed by a switch that ignores unknown values. */
  function FromOrdinal(i: int): (m: Option<MediaSelect>)
    ensures m.Some? <==> 0 <= i < 10
    ensures m.Some? ==> Ordinal(m.value) == i
  {
    if i == 0 then Some(LatestMusic)
    else if i == 1 then Some(Recent)
    else if i == 2 then Some(Artists)
    else if i == 3 then Some(AlbumArtists)
    else if i == 4 then Some(Albums)
    else if i == 5 then Some(Songs)
    else if i == 6 then Some(Playlists)
    else if i == 7 then Some(FavoriteArtists)
    else if i == 8 then Some(FavoriteAlbums)
    else if i == 9 then Some(Genres)
    else None
  }

  /** Every category survives the trip to its row number and back. */
  lemma OrdinalRoundTrip(m: MediaSelect)
    ensures FromOrdinal(Ordinal(m)) == Some(m)
  {
  }

  /** Distinct categories sit on distinct rows. */
  lemma OrdinalInjective(m: MediaSelect, n: MediaSelect)
    requires Ordinal(m) == Ordinal(n)
    ensures m == n
  {
    OrdinalRoundTrip(m);
    OrdinalRoundTrip(n);
  }

  function Label(m: MediaSelect): string {
    match m
    case LatestMusic => "Latest Music"
    case Recent => "Recently played"
    case Artists => "Artists"
    case AlbumArtists => "Album Artists"
    case Albums => "Albums"
    case Songs => "Songs"
    case Playlists => "Playlists"
    case FavoriteArtists => "Favorite Artists"
    case FavoriteAlbums => "Favorite Albums"
    case Genres => "Genres"
  }

  /** The table: cell texts keyed by (row, column), the number of rows, and
      the selected row. */
  datatype Navigation = Navigation(
    cells: map<(int, int), string>,
    rowCount: int,
    selectedRow: int,
    hasSelectFunc: bool)

  /** The constructor: column 0 of row `i` holds the label of category `i`
      for all ten categories and nothing else is filled in. */
  function NewMediaNavigation(hasSelectFunc: bool): (n: Navigation)
    ensures n.rowCount == 10 && n.selectedRow == 0
    ensures forall m :: (Ordinal(m), 0) in n.cells && n.cells[(Ordinal(m), 0)] == Label(m)
    ensures forall k :: k in n.cells ==> k.1 == 0 && 0 <= k.0 < 10
  {
    var cells := map i | 0 <= i < 10 :: (i, 0) := Label(FromOrdinal(i).value);
    assert forall m :: (Ordinal(m), 0) in cells && cells[(Ordinal(m), 0)] == Label(m) by {
      forall m ensures (Ordinal(m), 0) in cells && cells[(Ordinal(m), 0)] == Label(m) {
        OrdinalRoundTrip(m);
      }
    }
    Navigation(cells, 10, 0, hasSelectFunc)
  }

  /** Every category has a labelled row. */
  lemma EveryCategoryLabelled(m: MediaSelect)
    ensures NewMediaNavigation(false).cells[(Ordinal(m), 0)] == Label(m)
    ensures Label(m) != ""
  {
  }

  /** Write a count into column 1 of the category's row, touching no other cell. */
  function SetCount(n: Navigation, id: MediaSelect, count: int): (r: Navigation)
    ensures (Ordinal(id), 1) in r.cells && r.cells[(Ordinal(id), 1)] == IntToString(count)
    ensures forall k :: k != (Ordinal(id), 1) ==> (k in r.cells <==> k in n.cells)
    ensures forall k :: k in n.cells && k != (Ordinal(id), 1) ==> k in r.cells && r.cells[k] == n.cells[k]
    ensures r.rowCount == n.rowCount && r.selectedRow == n.selectedRow && r.hasSelectFunc == n.hasSelectFunc
  {
    n.(cells := n.cells[(Ordinal(id), 1) := IntToString(count)])
  }

  /** A count written with SetCount reads back as the same number. */
  lemma SetCountReadsBack(n: Navigation, id: MediaSelect, count: nat)
    ensures ParseNat(SetCount(n, id, count).cells[(Ordinal(id), 1)]) == count
  {
    NatToStringRoundTrip(count);
  }

  /** What the panel does with a key. */
  datatype KeyOutcome =
    | Select(index: int)  // the select callback gets `MediaSelect(index)`
    | ToTable(key: Key)   // the table's own handler moves the selection

  /** Enter with a select callback reports the selected row; everything else
      goes to the table. */
  function Input(n: Navigation, key: Key): (o: KeyOutcome)
    ensures o.Select? <==> key == KeyEnter && n.hasSelectFunc
    ensures o.Select? ==> o.index == n.selectedRow
    ensures o.ToTable? ==> o.key == key
  {
    if key == KeyEnter && n.hasSelectFunc then Select(n.selectedRow) else ToTable(key)
  }

  datatype Rect = Rect(x: int, y: int, width: int, height: int)

  predicate Contains(r: Rect, x: int, y: int) {
    r.x <= x < r.x + r.width && r.y <= y < r.y + r.height
  }

  datatype MouseAction = LeftClick | OtherMouseAction

  /** The result of a mouse event: whether the handler reported it consumed,
      whether it focused the panel, and the row handed to the select callback. */
  datatype Click = Click(consumed: bool, focused: bool, selected: Option<int>)

  /** The row a left click at height `y` lands on, as written: the test whether
      the click lies inside the inner rectangle sets -1 but is overwritten by the
      next assignment, so only rows at or past the row count map to -1. */
  function ClickRow(y: int, inner: Rect, offset: int, rowCount: int): (row: int)
    ensures row == -1 || row == (y - inner.y) + offset
    ensures row >= 0 ==> row < rowCount
    ensures (y - inner.y) + offset >= rowCount ==> row == -1
    ensures (y - inner.y) + offset < rowCount ==> row == (y - inner.y) + offset
  {
    var index := (y - inner.y) + offset;
    if index >= rowCount then -1 else index
  }

  /** The row a left click lands on, with the inside test kept: clicks on the
      border or outside the inner rectangle select nothing. */
  function ClickRowCorrected(x: int, y: int, inner: Rect, offset: int, rowCount: int): (row: int)
    ensures row >= 0 ==> Contains(inner, x, y) && row < rowCount && row == (y - inner.y) + offset
    ensures Contains(inner, x, y) ==> row == ClickRow(y, inner, offset, rowCount)
  {
    if !Contains(inner, x, y) then -1 else ClickRow(y, inner, offset, rowCount)
  }

  /** A click on the bottom border, just under the inner rectangle, selects
      the row below the last visible one. */
  lemma BorderClickSelectsRow()
    ensures var inner := Rect(1, 1, 20, 5);
            && Contains(Rect(0, 0, 22, 7), 10, 6)
            && !Contains(inner, 10, 6)
            && ClickRow(6, inner, 0, 10) == 5
            && ClickRowCorrected(10, 6, inner, 0, 10) == -1
  {
  }

  /** The mouse handler. `outer` is the widget's rectangle, `inner` the one
      inside its border, `offset` the first visible row. */
  function Mouse(n: Navigation, action: MouseAction, x: int, y: int, outer: Rect, inner: Rect, offset: int)
    : (r: (Navigation, Click))
    // the handler never reports an event as consumed
    ensures !r.1.consumed
    // a left click inside the widget focuses it
    ensures r.1.focused <==> action == LeftClick && Contains(outer, x, y)
    ensures !Contains(outer, x, y) ==> r == (n, Click(false, false, None))
    ensures action != LeftClick ==> r.0 == n && r.1.selected == None
    ensures r.1.selected.Some? ==>
              && action == LeftClick && Contains(outer, x, y) && n.hasSelectFunc
              && r.1.selected.value == (y - inner.y) + offset
              && 0 <= r.1.selected.value < n.rowCount
              && r.0 == n.(selectedRow := r.1.selected.value)
    ensures (action == LeftClick && Contains(outer, x, y) && n.hasSelectFunc
             && 0 <= (y - inner.y) + offset < n.rowCount) ==> r.1.selected.Some?
    ensures r.1.selected.None? ==> r.0 == n
  {
    if !Contains(outer, x, y) then (n, Click(false, false, None))
    else match action
      case LeftClick =>
        var row := ClickRow(y, inner, offset, n.rowCount);
        if row >= 0 && row < n.rowCount && n.hasSelectFunc then
          (n.(selectedRow := row), Click(false, true, Some(row)))
        else (n, Click(false, true, None))
      case OtherMouseAction => (n, Click(false, false, None))
  }

  /** Clicking a row selects the same category that Enter on that row selects. */
  lemma ClickAgreesWithEnter(n: Navigation, x: int, y: int, outer: Rect, inner: Rect, offset: int)
    requires Contains(outer, x, y) && n.hasSelectFunc
    requires 0 <= (y - inner.y) + offset < n.rowCount
    ensures var r := Mouse(n, LeftClick, x, y, outer, inner, offset);
            Input(r.0, KeyEnter) == Select(r.1.selected.value)
  {
  }
}

=== FILE: models.dfy ===
/** The values the widgets pass around: media items (kept by identity only),
    the outcome of a fetch from the item collaborator, the paging value object
    and the terminal key codes the widgets compare against. */
module Models {

  datatype ItemType = AlbumType | ArtistType | SongType | PlaylistType | GenreType | OtherType

  /** A media item as the widgets see it. `Nil` is Go's nil pointer: the
      window fills some result slices with it. */
  datatype Item = Item(kind: ItemType, id: string) | Nil

  /** The answer of a synchronous call on the item collaborator. */
  datatype Fetch<+T> = Fetched(value: T) | FetchError

  /** One page request: which page, how many items a page holds, and the
      total the server reported for the whole collection. */
  datatype Paging = Paging(currentPage: int, pageSize: int, totalItems: int) {

    /** Index of the first item of the current page. */
    function Offset(): int {
      currentPage * pageSize
    }

    /** Record the total reported by the server. */
    function SetTotalItems(n: int): (p: Paging)
      ensures p.totalItems == n
      ensures p.currentPage == currentPage && p.pageSize == pageSize
    {
      this.(totalItems := n)
    }
  }

  /** Key codes of the terminal toolkit, as its key constants define them. */
  type Key = int

  const KeyTab: Key := 9
  const KeyCtrlJ: Key := 10
  const KeyCtrlK: Key := 11
  const KeyEnter: Key := 13
  const KeyEscape: Key := 27
  const KeyUp: Key := 257
  const KeyDown: Key := 258
  const KeyRight: Key := 259
  const KeyLeft: Key := 260

  /** Modifier masks of a key event. */
  const ModNone: int := 0
  const ModAlt: int := 4
}

=== FILE: playlist.dfy ===
/** The playlist screen (ui/widgets/playlist.go): a header with buttons over
    a list of numbered songs. Keys either move focus between header and list
    or play songs through the callbacks the window installed; the context menu
    opens the song's album or artist or starts an instant mix. Go's index
    panics are kept as an explicit outcome. */
module PlaylistWidget {
  import opened Common
  import opened Models

  /** A song row and the number printed in front of it. */
  datatype Row = Row(song: Item, number: int)

  datatype PlaylistView = PlaylistView(
    playlist: Option<Item>,
    rows: seq<Row>,
    listFocused: bool,
    hasPlaySong: bool,   // playSongFunc is set
    hasPlaySongs: bool,  // playSongsFunc is set
    hasContext: bool)    // a context operator was given, so the context menu exists

  /** What a key press or menu action asks of the rest of the program. */
  datatype Call =
    | NoCall
    | PlaySong(song: Item)
    | PlaySongs(songs: seq<Item>)
    | ViewAlbum(song: Item)
    | ViewArtist(song: Item)
    | InstantMix(song: Item)
    | ListKey(key: Key)       // the key went on to the scroll list
    | IndexPanic              // the Go code indexes past the end of a slice

  datatype ContextAction = PlayFromHere | ViewAlbumAction | ViewArtistAction | InstantMixAction

  function NewPlaylistView(hasPlaySong: bool, hasPlaySongs: bool, hasContext: bool): (v: PlaylistView)
    // an empty list with the header focused, no playlist, and the callbacks as given
    ensures v.rows == [] && !v.listFocused && v.playlist == None
    ensures v.hasPlaySong == hasPlaySong && v.hasPlaySongs == hasPlaySongs && v.hasContext == hasContext
  {
    PlaylistView(None, [], false, hasPlaySong, hasPlaySongs, hasContext)
  }

  /** The songs in list order. */
  function Songs(v: PlaylistView): (s: seq<Item>)
    ensures |s| == |v.rows|
    ensures forall i :: 0 <= i < |s| ==> s[i] == v.rows[i].song
  {
    seq(|v.rows|, i requires 0 <= i < |v.rows| => v.rows[i].song)
  }

  /** Show a playlist: one row per song, in order, numbered from 1. */
  function SetPlaylist(v: PlaylistView, playlist: Item, songs: seq<Item>): (r: PlaylistView)
    ensures r.playlist == Some(playlist)
    ensures |r.rows| == |songs|
    ensures forall i :: 0 <= i < |songs| ==> r.rows[i] == Row(songs[i], i + 1)
    ensures r.(playlist := v.playlist, rows := v.rows) == v
  {
    v.(playlist := Some(playlist),
       rows := seq(|songs|, i requires 0 <= i < |songs| => Row(songs[i], i + 1)))
  }

  /** Play the song at `index`. */
  function PlaySongAt(v: PlaylistView, index: nat): (c: Call)
    ensures !v.hasPlaySong ==> c == NoCall
    ensures v.hasPlaySong && index < |v.rows| ==> c == PlaySong(v.rows[index].song)
    ensures v.hasPlaySong && index >= |v.rows| ==> c == IndexPanic
  {
    if !v.hasPlaySong then NoCall
    else if index < |v.rows| then PlaySong(v.rows[index].song)
    else IndexPanic
  }

  /** The "Play all" button: every song, in list order. */
  function PlayAll(v: PlaylistView): (c: Call)
    ensures v.hasPlaySongs ==> c == PlaySongs(Songs(v))
    ensures !v.hasPlaySongs ==> c == NoCall
  {
    if v.hasPlaySongs then PlaySongs(Songs(v)) else NoCall
  }

  /** "Play all from here": the songs from the selected one to the end. A
      selection past the end makes Go's `make` panic on a negative length. */
  function PlayFromSelected(v: PlaylistView, index: nat): (c: Call)
    ensures !v.hasPlaySongs ==> c == NoCall
    ensures v.hasPlaySongs && index <= |v.rows| ==>
              c.PlaySongs? && |c.songs| == |v.rows| - index
              && forall k :: 0 <= k < |c.songs| ==> c.songs[k] == v.rows[index + k].song
    ensures v.hasPlaySongs && index > |v.rows| ==> c == IndexPanic
  {
    if !v.hasPlaySongs then NoCall
    else if index <= |v.rows| then PlaySongs(Songs(v)[index..])
    else IndexPanic
  }

  /** The key handler. `selected` is the list's selected index. */
  function Input(v: PlaylistView, key: Key, mods: int, selected: nat): (r: (PlaylistView, Call))
    // list focused, at the top: Up or Ctrl-K hands focus back to the header
    ensures v.listFocused && selected == 0 && key in {KeyUp, KeyCtrlK} ==>
              r == (v.(listFocused := false), NoCall)
    // list focused: a bare Enter plays the selected song
    ensures v.listFocused && !(selected == 0 && key in {KeyUp, KeyCtrlK}) && key == KeyEnter && mods == ModNone ==>
              r == (v, PlaySongAt(v, selected))
    // list focused: any other key goes on to the list
    ensures v.listFocused && !(selected == 0 && key in {KeyUp, KeyCtrlK}) && !(key == KeyEnter && mods == ModNone) ==>
              r == (v, ListKey(key))
    // header focused: Down or Ctrl-J focuses the list, every other key is dropped
    ensures !v.listFocused && key in {KeyDown, KeyCtrlJ} ==> r == (v.(listFocused := true), NoCall)
    ensures !v.listFocused && key !in {KeyDown, KeyCtrlJ} ==> r == (v, NoCall)
  {
    if v.listFocused then
      if selected == 0 && (key == KeyUp || key == KeyCtrlK) then (v.(listFocused := false), NoCall)
      else if key == KeyEnter && mods == ModNone then (v, PlaySongAt(v, selected))
      else (v, ListKey(key))
    else
      if key == KeyDown || key == KeyCtrlJ then (v.(listFocused := true), NoCall)
      else (v, NoCall)
  }

  /** A context-menu action. `index` is the row the menu reports and
      `selected` the list's selected index, which the actions read again. */
  function Context(v: PlaylistView, action: ContextAction, index: nat, selected: nat): (c: Call)
    ensures !v.hasContext ==> c == NoCall
    ensures v.hasContext && action == PlayFromHere ==> c == PlayFromSelected(v, selected)
    // "View album" has no guard: a selection past the end panics
    ensures v.hasContext && action == ViewAlbumAction ==>
              c == (if selected < |v.rows| then ViewAlbum(v.rows[selected].song) else IndexPanic)
    // "View artist" and "Instant mix" do nothing for an index past the end
    ensures v.hasContext && action in {ViewArtistAction, InstantMixAction} && index >= |v.rows| ==> c == NoCall
    ensures v.hasContext && action == ViewArtistAction && index < |v.rows| && selected < |v.rows| ==>
              c == ViewArtist(v.rows[selected].song)
    ensures v.hasContext && action == InstantMixAction && index < |v.rows| && selected < |v.rows| ==>
              c == InstantMix(v.rows[selected].song)
  {
    if !v.hasContext then NoCall
    else match action
      case PlayFromHere => PlayFromSelected(v, selected)
      case ViewAlbumAction =>
        if selected < |v.rows| then ViewAlbum(v.rows[selected].song) else IndexPanic
      case ViewArtistAction =>
        if index < |v.rows| then
          (if selected < |v.rows| then ViewArtist(v.rows[selected].song) else IndexPanic)
        else NoCall
      case InstantMixAction =>
        if index < |v.rows| then
          (if selected < |v.rows| then InstantMix(v.rows[selected].song) else IndexPanic)
        else NoCall
  }

  // ---------------------------------------------------------------------------
  // Properties relating several operations
  // ---------------------------------------------------------------------------

  /** Showing a playlist and pressing "Play all" queues exactly its songs. */
  lemma PlayAllAfterSetPlaylist(v: PlaylistView, playlist: Item, songs: seq<Item>)
    requires v.hasPlaySongs
    ensures PlayAll(SetPlaylist(v, playlist, songs)) == PlaySongs(songs)
  {
    var r := SetPlaylist(v, playlist, songs);
    assert Songs(r) == songs;
  }

  /** Playing from the first row is playing everything. */
  lemma PlayFromFirstIsPlayAll(v: PlaylistView)
    ensures PlayFromSelected(v, 0) == PlayAll(v)
  {
    assert Songs(v)[0..] == Songs(v);
  }

  /** Playing from row `i` queues row `i`'s song first, and the rest of the
      list is what playing from row `i + 1` queues. */
  lemma PlayFromSelectedSplits(v: PlaylistView, i: nat)
    requires v.hasPlaySongs && i < |v.rows|
    ensures PlayFromSelected(v, i).songs == [v.rows[i].song] + PlayFromSelected(v, i + 1).songs
  {
    assert Songs(v)[i..] == [Songs(v)[i]] + Songs(v)[i + 1..];
  }

  /** Down from the header then Up at the top of the list restores the view. */
  lemma DownThenUpRestores(v: PlaylistView, mods: int)
    requires !v.listFocused
    ensures Input(Input(v, KeyDown, mods, 0).0, KeyUp, mods, 0) == (v, NoCall)
  {
  }

  /** Enter on a shown row plays exactly the song of that row. */
  lemma EnterPlaysShownSong(v: PlaylistView, playlist: Item, songs: seq<Item>, i: nat)
    requires v.listFocused && v.hasPlaySong && i < |songs|
    ensures Input(SetPlaylist(v, playlist, songs), KeyEnter, ModNone, i).1 == PlaySong(songs[i])
  {
  }
}

=== FILE: window.dfy ===
/** The navigation and focus core of the root window (ui/widgets/window.go):
    which screen is in the central slot, each screen's back-link, where the
    keyboard focus is and where it was before, and the single modal overlay.
    Screens and modals are identified by which of the window's widgets they
    are; drawing, borders and the grid layout are left to the toolkit. */
module Window {
  import opened Common

  /** The screens the window can put in its central slot. */
  datatype Screen =
    | ArtistsView | AlbumsView | SimilarAlbumsView | AlbumView | LatestAlbumsView
    | FavoriteAlbumsView | PlaylistsView | PlaylistView | SongsView | GenresView
    | SearchView | QueueView | HistoryView

  /** The modal dialogs the window owns. */
  datatype Modal = HelpDialog | MessageDialog

  /** The primitive holding the keyboard focus; `NoFocus` is a nil primitive. */
  datatype Focus = NoFocus | OnMediaNav | OnScreen(screen: Screen) | OnModal(modal: Modal)

  /** How a modal is laid over the grid: a fixed size or the large dynamic size. */
  datatype Placement = Fixed(height: nat, width: nat) | DynamicLarge

  datatype Window = Window(
    mediaView: Option<Screen>,    // the screen in the central slot
    back: map<Screen, Screen>,    // each screen's back-link; absent means nil
    focus: Focus,
    lastFocus: Focus,
    hasModal: bool,
    modal: Option<Modal>,
    placement: Option<Placement>, // how the open modal is laid out
    mediaViewSelected: bool)      // Tab last moved focus to the central slot

  /** The window as the constructor leaves it: nothing in the central slot,
      the media-navigation panel focused, no modal. */
  function NewWindow(): (w: Window)
    ensures ModalConsistent(w) && NoSelfLink(w)
    ensures w.mediaView == None && w.focus == OnMediaNav && !w.hasModal
  {
    Window(None, map[], OnMediaNav, NoFocus, false, None, None, false)
  }

  /** The screen's back-link, `None` for nil. */
  function BackOf(w: Window, s: Screen): Option<Screen> {
    if s in w.back then Some(w.back[s]) else None
  }

  /** `SetLast`: point screen `s`'s back-link at `last`. */
  function SetLast(w: Window, s: Screen, last: Option<Screen>): (r: Window)
    ensures BackOf(r, s) == last
    ensures forall t :: t != s ==> BackOf(r, t) == BackOf(w, t)
    ensures r.(back := w.back) == w
  {
    match last
    case Some(l) => w.(back := w.back[s := l])
    case None => w.(back := w.back - {s})
  }

  /** Two windows whose screens all have the same back-link have the same link map. */
  lemma SameLinksSameMap(w: Window, v: Window)
    requires forall s :: BackOf(w, s) == BackOf(v, s)
    ensures w.back == v.back
  {
    forall s ensures (s in w.back <==> s in v.back) && (s in w.back ==> w.back[s] == v.back[s]) {
      assert BackOf(w, s) == BackOf(v, s);
    }
  }

  /** The focus that lands on the central slot (nil when it is empty). */
  function ViewFocus(v: Option<Screen>): Focus {
    match v
    case Some(s) => OnScreen(s)
    case None => NoFocus
  }

  /** The open-modal flag and the modal reference agree. */
  predicate ModalConsistent(w: Window) {
    && (w.hasModal <==> w.modal.Some?)
    && (w.hasModal <==> w.placement.Some?)
  }

  /** No screen's back-link points at the screen itself. */
  predicate NoSelfLink(w: Window) {
    forall s :: s in w.back ==> w.back[s] != s
  }

  /** Everything but the central slot, the back-links and the focus pair is equal. */
  predicate SameOverlay(w: Window, r: Window) {
    && r.hasModal == w.hasModal && r.modal == w.modal && r.placement == w.placement
    && r.mediaViewSelected == w.mediaViewSelected
  }

  /** Put screen `p` in the central slot. Asking for the current screen does
      nothing at all. Otherwise `p` becomes current and focused, the focus held
      before is remembered, and with `updatePrevious` `p`'s back-link is set to
      the screen it replaced. */
  function SetViewWidget(w: Window, p: Screen, updatePrevious: bool): (r: Window)
    ensures w.mediaView == Some(p) ==> r == w
    ensures w.mediaView != Some(p) ==>
              r.mediaView == Some(p) && r.focus == OnScreen(p) && r.lastFocus == w.focus
    ensures w.mediaView != Some(p) && updatePrevious ==> BackOf(r, p) == w.mediaView
    ensures !updatePrevious ==> r.back == w.back
    ensures forall s :: s != p ==> BackOf(r, s) == BackOf(w, s)
    ensures SameOverlay(w, r)
    ensures NoSelfLink(w) ==> NoSelfLink(r)
  {
    if w.mediaView == Some(p) then w
    else
      var moved := w.(lastFocus := w.focus, focus := OnScreen(p), mediaView := Some(p));
      if updatePrevious then SetLast(moved, p, w.mediaView) else moved
  }

  /** Whether the constructor hands the screen the window's back callback.
      The latest-albums, favorite-albums, playlists and search screens are
      never given one. */
  predicate HasBackCallback(s: Screen) {
    !(s.LatestAlbumsView? || s.FavoriteAlbumsView? || s.PlaylistsView? || s.SearchView?)
  }

  /** The back callback: switch to `p` without touching back-links. */
  function GoBack(w: Window, p: Screen): (r: Window)
    ensures r.back == w.back
    ensures w.mediaView != Some(p) ==> r.mediaView == Some(p) && r.focus == OnScreen(p)
    ensures w.mediaView == Some(p) ==> r == w
  {
    SetViewWidget(w, p, false)
  }

  /** A screen's back button: on a screen that was given the back callback,
      follow its back-link; with no callback or no link nothing happens. */
  function Back(w: Window): (r: Window)
    ensures r.back == w.back && SameOverlay(w, r)
    ensures w.mediaView.Some? && HasBackCallback(w.mediaView.value) && w.mediaView.value in w.back ==>
              r.mediaView == Some(w.back[w.mediaView.value])
    ensures !(w.mediaView.Some? && HasBackCallback(w.mediaView.value) && w.mediaView.value in w.back) ==> r == w
  {
    match w.mediaView
    case Some(v) => if HasBackCallback(v) && v in w.back then GoBack(w, w.back[v]) else w
    case None => w
  }

  /** The result of asking for a modal: the window afterwards, or the panic
      of calling `Blur` on the nil primitive that held the focus. */
  datatype Opening = Opened(win: Window) | NilBlurPanic

  /** How the size hint lays a modal out. */
  function PlacementFor(height: nat, width: nat, lockSize: bool): Placement {
    if lockSize then DynamicLarge else Fixed(height, width)
  }

  /** Open modal `m` laid out per the size hint, unless a modal is open
      already, in which case the request is refused and nothing changes. The
      focus held before is saved and blurred without a nil check, so opening
      a modal while no primitive has the focus panics. */
  function ShowModal(w: Window, m: Modal, height: nat, width: nat, lockSize: bool): (r: Opening)
    ensures w.hasModal ==> r == Opened(w)
    ensures r.NilBlurPanic? <==> !w.hasModal && w.focus == NoFocus
    ensures !w.hasModal && r.Opened? ==>
              && r.win.hasModal && r.win.modal == Some(m)
              && r.win.lastFocus == w.focus && r.win.focus == OnModal(m)
              && r.win.placement == Some(PlacementFor(height, width, lockSize))
              && r.win.mediaView == w.mediaView && r.win.back == w.back
              && r.win.mediaViewSelected == w.mediaViewSelected
    ensures r.Opened? && ModalConsistent(w) ==> ModalConsistent(r.win)
  {
    if w.hasModal then Opened(w)
    else if w.focus == NoFocus then NilBlurPanic
    else Opened(w.(hasModal := true, modal := Some(m), lastFocus := w.focus, focus := OnModal(m),
                   placement := Some(PlacementFor(height, width, lockSize))))
  }

  /** Opening a modal with the nil check `moveCtrl` makes before blurring:
      a nil focus is saved as it is, and closing the modal gives it back. */
  function ShowModalGuarded(w: Window, m: Modal, height: nat, width: nat, lockSize: bool): (r: Window)
    ensures ShowModal(w, m, height, width, lockSize).Opened? ==> r == ShowModal(w, m, height, width, lockSize).win
    ensures !w.hasModal ==> r.hasModal && r.modal == Some(m) && r.lastFocus == w.focus && r.focus == OnModal(m)
    ensures ModalConsistent(w) ==> ModalConsistent(r)
  {
    if w.hasModal then w
    else w.(hasModal := true, modal := Some(m), lastFocus := w.focus, focus := OnModal(m),
            placement := Some(PlacementFor(height, width, lockSize)))
  }

  /** Close the open modal, whichever it is, and give the focus back to the
      primitive that held it; with no modal open nothing changes. The modal
      argument of the source is only blurred and hidden, so it is not a parameter. */
  function CloseModal(w: Window): (r: Window)
    ensures !w.hasModal ==> r == w
    ensures w.hasModal ==>
              && !r.hasModal && r.modal == None && r.placement == None
              && r.focus == w.lastFocus && r.lastFocus == NoFocus
              && r.mediaView == w.mediaView && r.back == w.back
              && r.mediaViewSelected == w.mediaViewSelected
    ensures ModalConsistent(w) ==> ModalConsistent(r)
  {
    if w.hasModal then
      w.(hasModal := false, modal := None, placement := None, focus := w.lastFocus, lastFocus := NoFocus)
    else w
  }

  /** The Tab key: close any open modal, then move the focus to the panel that
      does not have it — the navigation panel when the central slot was
      selected, the central slot otherwise. */
  function MoveCtrl(w: Window): (r: Window)
    ensures !r.hasModal
    ensures ModalConsistent(w) ==> ModalConsistent(r) && r.modal == None
    ensures r.mediaViewSelected == !w.mediaViewSelected
    ensures w.mediaViewSelected ==> r.focus == OnMediaNav && r.lastFocus == ViewFocus(w.mediaView)
    ensures !w.mediaViewSelected ==> r.focus == ViewFocus(w.mediaView)
    ensures !w.mediaViewSelected && !w.hasModal ==> r.lastFocus == w.focus
    ensures !w.mediaViewSelected && w.hasModal ==> r.lastFocus == w.lastFocus
    ensures r.mediaView == w.mediaView && r.back == w.back
  {
    var c := CloseModal(w);
    if c.mediaViewSelected then
      c.(lastFocus := ViewFocus(c.mediaView), focus := OnMediaNav, mediaViewSelected := false)
    else
      c.(lastFocus := c.focus, focus := ViewFocus(c.mediaView), mediaViewSelected := true)
  }

  // ---------------------------------------------------------------------------
  // Properties relating several transitions
  // ---------------------------------------------------------------------------

  /** Opening a modal and closing it again restores the window, except that
      the remembered focus is cleared. Some primitive must hold the focus:
      otherwise the opening panics. */
  lemma ShowThenClose(w: Window, m: Modal, height: nat, width: nat, lockSize: bool)
    requires ModalConsistent(w) && !w.hasModal && w.focus != NoFocus
    ensures var o := ShowModal(w, m, height, width, lockSize);
            o.Opened? && CloseModal(o.win) == w.(lastFocus := NoFocus)
  {
  }

  /** With nothing focused the modal cannot be opened: the blur panics. */
  lemma ShowWithoutFocusPanics(w: Window, m: Modal, height: nat, width: nat, lockSize: bool)
    requires ModalConsistent(w) && !w.hasModal && w.focus == NoFocus
    ensures ShowModal(w, m, height, width, lockSize) == NilBlurPanic
    ensures CloseModal(ShowModalGuarded(w, m, height, width, lockSize)) == w.(lastFocus := NoFocus)
  {
  }

  /** The guarded opening completes the round trip from every window without
      a modal, including one whose focus is nil. */
  lemma GuardedShowThenClose(w: Window, m: Modal, height: nat, width: nat, lockSize: bool)
    requires ModalConsistent(w) && !w.hasModal
    ensures CloseModal(ShowModalGuarded(w, m, height, width, lockSize)) == w.(lastFocus := NoFocus)
  {
  }

  /** A second modal is refused: the first stays open and unmodified. */
  lemma SecondModalRefused(w: Window, m1: Modal, m2: Modal, h: nat, wd: nat, l1: bool, l2: bool)
    requires !w.hasModal && w.focus != NoFocus
    ensures var once := ShowModal(w, m1, h, wd, l1);
            once.Opened? && ShowModal(once.win, m2, h, wd, l2) == once && once.win.modal == Some(m1)
  {
  }

  /** Closing twice is closing once. */
  lemma CloseIdempotent(w: Window)
    ensures CloseModal(CloseModal(w)) == CloseModal(w)
  {
  }

  /** Switching to a screen and going back along its new back-link returns to
      the screen that was current, and the back-links are those the switch left. */
  lemma SwitchThenBack(w: Window, p: Screen)
    requires w.mediaView.Some? && w.mediaView != Some(p) && HasBackCallback(p)
    ensures var there := SetViewWidget(w, p, true);
            Back(there).mediaView == w.mediaView && Back(there).back == there.back
  {
  }

  /** A screen without the back callback keeps the central slot: switching
      to it sets its back-link, yet its back button changes nothing. */
  lemma SwitchToUncalledStays(w: Window, p: Screen)
    requires w.mediaView.Some? && w.mediaView != Some(p) && !HasBackCallback(p)
    ensures var there := SetViewWidget(w, p, true);
            BackOf(there, p) == w.mediaView && Back(there) == there
  {
  }

  /** From the artists screen, "Latest music" and then back stays on the
      latest albums. */
  lemma LatestAlbumsBackStays(w: Window)
    requires w.mediaView == Some(ArtistsView)
    ensures var there := SetViewWidget(w, LatestAlbumsView, true);
            Back(there) == there && Back(there).mediaView == Some(LatestAlbumsView)
  {
  }

  /** After the navigation panel hands a screen to the central slot, focus is
      already on the screen but `mediaViewSelected` is still false, so the
      next Tab keeps the focus where it is and only flips the flag. */
  lemma TabAfterNavigationStaysOnView(w: Window, p: Screen)
    requires !w.hasModal && !w.mediaViewSelected && w.mediaView != Some(p)
    ensures var there := SetViewWidget(w, p, true);
            MoveCtrl(there).focus == there.focus == OnScreen(p)
  {
  }

  /** Two Tabs with no modal open bring the selection flag back and leave
      the focus on the side the flag names. */
  lemma TabTwice(w: Window)
    requires !w.hasModal && ModalConsistent(w)
    ensures MoveCtrl(MoveCtrl(w)).mediaViewSelected == w.mediaViewSelected
    ensures w.mediaViewSelected ==> MoveCtrl(MoveCtrl(w)).focus == ViewFocus(w.mediaView)
    ensures !w.mediaViewSelected ==> MoveCtrl(MoveCtrl(w)).focus == OnMediaNav
  {
  }

  /** Back-links are not kept acyclic: drilling from A to B and on to A
      leaves A and B pointing at each other. */
  lemma BackLinksCanCycle(w: Window, a: Screen, b: Screen)
    requires w.mediaView == Some(a) && a != b
    ensures var r := SetViewWidget(SetViewWidget(w, b, true), a, true);
            BackOf(r, a) == Some(b) && BackOf(r, b) == Some(a)
  {
  }

  // ---------------------------------------------------------------------------
  // Drilling down and coming back
  // ---------------------------------------------------------------------------

  /** Switch through the screens of `path` in order, each time chaining the back-link. */
  function DrillDown(w: Window, path: seq<Screen>): Window
  {
    if |path| == 0 then w
    else SetViewWidget(DrillDown(w, path[..|path| - 1]), path[|path| - 1], true)
  }

  /** Press the back button `n` times. */
  function BackTimes(w: Window, n: nat): Window
    decreases n
  {
    if n == 0 then w else BackTimes(Back(w), n - 1)
  }

  predicate Distinct(path: seq<Screen>) {
    forall i, j :: 0 <= i < j < |path| ==> path[i] != path[j]
  }

  /** Every screen of the path was given the back callback. */
  predicate AllCalledBack(path: seq<Screen>) {
    forall i :: 0 <= i < |path| ==> HasBackCallback(path[i])
  }

  /** The back-links drilling along `path` from `start` leaves behind: each
      screen of the path points at the one before it, the first at `start`. */
  predicate Chained(w: Window, start: Screen, path: seq<Screen>) {
    forall i {:trigger BackOf(w, path[i])} :: 0 <= i < |path| ==> BackOf(w, path[i]) == Some(Before(start, path, i))
  }

  /** The screen before position `i` of a path that starts from `start`. */
  function Before(start: Screen, path: seq<Screen>, i: nat): Screen
    requires i < |path|
  {
    if i == 0 then start else path[i - 1]
  }

  lemma {:induction false} DrillDownChains(w: Window, start: Screen, path: seq<Screen>)
    requires w.mediaView == Some(start) && Distinct(path) && start !in path
    ensures DrillDown(w, path).mediaView == Some(if |path| == 0 then start else path[|path| - 1])
    ensures Chained(DrillDown(w, path), start, path)
  {
    if |path| > 0 {
      var init := path[..|path| - 1];
      var p := path[|path| - 1];
      DrillDownChains(w, start, init);
      var before := DrillDown(w, init);
      assert before.mediaView != Some(p) by {
        if |init| > 0 {
          assert init[|init| - 1] == path[|path| - 2];
        }
      }
      forall i | 0 <= i < |path|
        ensures BackOf(DrillDown(w, path), path[i]) == Some(Before(start, path, i))
      {
        if i < |path| - 1 {
          assert path[i] == init[i] && path[i] != p;
          if i > 0 {
            assert path[i - 1] == init[i - 1];
          }
        } else if i > 0 {
          assert init[|init| - 1] == path[i - 1];
        }
      }
    }
  }

  /** One press of the back button along a chain of links moves one screen
      back and keeps the chain. */
  lemma BackStep(w: Window, start: Screen, path: seq<Screen>, k: nat)
    requires k < |path| && Chained(w, start, path) && w.mediaView == Some(path[k])
    requires HasBackCallback(path[k])
    ensures Back(w).mediaView == Some(Before(start, path, k))
    ensures Chained(Back(w), start, path)
  {
    assert BackOf(w, path[k]) == Some(Before(start, path, k));
    var b := Back(w);
    forall i | 0 <= i < |path| ensures BackOf(b, path[i]) == Some(Before(start, path, i)) {
      assert BackOf(w, path[i]) == Some(Before(start, path, i));
    }
  }

  lemma {:induction false} BackAlongChain(w: Window, start: Screen, path: seq<Screen>, k: nat)
    requires k < |path| && Chained(w, start, path) && w.mediaView == Some(path[k])
    requires AllCalledBack(path)
    ensures BackTimes(w, k + 1).mediaView == Some(start)
    decreases k
  {
    BackStep(w, start, path, k);
    if k > 0 {
      BackAlongChain(Back(w), start, path, k - 1);
    }
  }

  /** Drilling through distinct screens that all have the back callback and
      pressing back as many times returns to the screen where the drilling
      started. */
  lemma DrillThenBack(w: Window, start: Screen, path: seq<Screen>)
    requires w.mediaView == Some(start) && Distinct(path) && start !in path && AllCalledBack(path)
    ensures BackTimes(DrillDown(w, path), |path|).mediaView == Some(start)
  {
    DrillDownChains(w, start, path);
    if |path| > 0 {
      BackAlongChain(DrillDown(w, path), start, path, |path| - 1);
    }
  }
}
